=== FILE: README.md ===
# Appointment booking rules, modelled in Dafny

This project models the scheduling core of a small NestJS service for doctor
appointments. The core covers:

- the booking validator: appointment creation with its end-time derivation,
  its ordered checks and its overlap query;
- the appointment status-transition rule;
- the doctor configuration checks on creation and update;
- the generator of a doctor's bookable slots for a day;
- the `HH:MM` time format and length bounds of the request bodies.

The repositories are modelled as sequences of immutable records, and each
service operation as a pure function from the repository to a `Result`.
Every exception the source throws is a `Result` error.

Modules, one per concern:

- `Outcomes`: `Option` and `Result`.
- `ClockTime`: the `HH:MM` pattern and its two layers, strings and minutes.
  The string layer compares strings character by character in code-point
  order (`Less`). That equals JavaScript's order on the ASCII strings the
  time pattern admits. The minutes layer is minutes since midnight. The module proves
  that the two orders agree on zero-padded strings, and that the unpadded
  hour the pattern also admits breaks that agreement.
- `Entities`: statuses, doctors, appointments, doctor lookup, and the status
  filters of the two repository queries.
- `Requests`: the request bodies and their validation decorators.
- `Appointments`: end time, overlap test, booking, the no-double-booking
  invariant and the status update.
- `Doctors`: doctor creation and update, and the slot grid (a recursive
  reference definition plus the loop that walks it).
- `Scenarios`: whole-model consequences, including the double booking of the
  repository's end-to-end script.

Inputs the services read from the environment are parameters:

- the current instant (`Clock.now`, in minutes of the local calendar);
- the weekday of the requested date (`Clock.weekday`, or the `weekday`
  argument of the slot listing);
- the identifiers the database generates.

Behaviours of the code the model keeps:

- The slot loop (src/doctors/doctors.service.ts:157-171) emits a slot at
  every cursor strictly before the end time. So there are
  ceil((end − start) / length) slots, not floor. The last slot may run past
  the doctor's end time (`Doctors.GridCount`, `Doctors.GridRoundsUp`).
- The slot query (src/doctors/doctors.service.ts:142-144) counts a slot as
  taken by any record whose status is not `cancelled` or `no_show`. So a `completed` booking still takes its slot, although it no
  longer blocks a new booking under the intended overlap filter
  (`Entities.BookedDiffersFromActive`,
  `Scenarios.CompletedFreesBookingButNotSlot`).
- The working-hours check (src/appointments/appointments.service.ts:43)
  looks at the start only. A booking may end after
  the doctor's day (`Scenarios.LateStartRunsPastClosing`).
- The status rule (src/appointments/appointments.service.ts:128-141) allows
  every transition out of a non-completed state. A
  cancelled booking can return to `scheduled` without an overlap check, and
  that re-creates a double booking (`Scenarios.ReactivationReopensDoubleBooking`).

## Model

| member | source | states |
|---|---|---|
| Outcomes.Supplied | src/doctors/doctors.service.ts:90 | definition: JavaScript truthiness of an optional string, present and non-empty; also the cancellation-reason test at src/appointments/appointments.service.ts:133 |
| ClockTime.MatchesTimePattern | src/doctors/dto/create-doctor.dto.ts:36 | definition: the pattern `^([01]?[0-9]\|2[0-3]):[0-5][0-9]$`, used for both doctor times and the appointment start |
| ClockTime.Less | src/appointments/appointments.service.ts:43 | definition: JavaScript's `<` on strings, character by character, a proper prefix first |
| ClockTime.AtLeast | src/appointments/appointments.service.ts:43 | definition: JavaScript's `>=` on strings, as the negation of `<` |
| ClockTime.AtMost | src/appointments/appointments.service.ts:172-173 | definition: JavaScript's `<=` on strings, as the negation of `>` |
| ClockTime.Greater | src/appointments/appointments.service.ts:172 | definition: JavaScript's `>` on strings, as `<` with the operands swapped |
| ClockTime.ToMinutes | src/appointments/appointments.service.ts:25 | every string the time pattern accepts denotes a minute of the day in [0, 1440) |
| ClockTime.Render | src/appointments/appointments.service.ts:27 | the rendering of a minute is zero-padded `HH:MM` and denotes that same minute |
| ClockTime.RenderOfPadded | src/appointments/appointments.service.ts:25-27 | rendering inverts parsing on zero-padded strings, so each padded time has exactly one minute and back |
| ClockTime.RenderShortOfUnpadded | src/doctors/dto/create-doctor.dto.ts:36 | an accepted four-character time lies before 10:00 and is the unpadded rendering of its minute |
| ClockTime.TimePatternLanguage | src/doctors/dto/create-doctor.dto.ts:36 | the pattern accepts exactly the padded renderings of minutes 0-1439 and the unpadded renderings of minutes before 10:00 |
| ClockTime.LessIrreflexive | src/appointments/appointments.service.ts:43 | JavaScript string order is irreflexive |
| ClockTime.LessAsymmetric | src/appointments/appointments.service.ts:43 | JavaScript string order is asymmetric |
| ClockTime.LessTotal | src/appointments/appointments.service.ts:43 | any two distinct strings are ordered one way or the other |
| ClockTime.LessTransitive | src/appointments/appointments.service.ts:172-174 | JavaScript string order is transitive |
| ClockTime.PaddedOrderIsMinuteOrder | src/doctors/dto/create-doctor.dto.ts:35-41 | on zero-padded times, string `<` holds iff the minutes are in `<` order |
| ClockTime.PaddedAtMostIsMinuteOrder | src/doctors/dto/create-doctor.dto.ts:35-41 | on zero-padded times, string `<=` and `>=` coincide with minute order |
| ClockTime.UnpaddedHourBreaksOrder | src/doctors/dto/create-doctor.dto.ts:36 | "9:00" and "10:00" are both accepted, yet "10:00" sorts before "9:00" while 9:00 is the earlier time |
| Entities.FirstWithId | src/doctors/doctors.service.ts:73-84 | the lookup by primary key returns the first record with the id, and reports absence exactly when no record has it |
| Entities.DoctorIndex | src/doctors/doctors.service.ts:73-84 | the lookup finds the first doctor with the id, and reports absence exactly when no doctor has it |
| Entities.FindDoctor | src/doctors/doctors.service.ts:73-84 | a found doctor is in the repository with that id; nothing is found iff no doctor has the id |
| Entities.Admits | src/appointments/appointments.service.ts:161 | definition: a string-range, an `IN` or a `NOT IN` status filter, the range compared on the stored status text |
| Entities.WrittenOverlapFilterIsEmpty | src/appointments/appointments.service.ts:161 | the range 'scheduled' to 'confirmed' in string order admits no status, since 'confirmed' sorts first |
| Entities.ActiveFilterIsActive | src/appointments/entities/appointment.entity.ts:4-10 | the intended filter admits exactly the scheduled and confirmed statuses |
| Entities.BookedDiffersFromActive | src/doctors/doctors.service.ts:142-144 | the slot query keeps a status iff it is active or completed |
| Requests.ValidCreateDoctor | src/doctors/dto/create-doctor.dto.ts:5-47 | definition: the length bounds of names and phone, both times in the pattern, a supplied slot length in [15, 120] |
| Requests.ValidCreateAppointment | src/appointments/dto/create-appointment.dto.ts:7-31 | definition: the length bounds of the patient's names and phone, and the start in the pattern |
| Requests.ValidDoctorUpdate | src/doctors/dto/create-doctor.dto.ts:5-47 | definition: the same field checks applied to each field an update body carries |
| Requests.EffectiveDuration | src/doctors/dto/create-doctor.dto.ts:43-47 | a supplied slot length is the one stored and a missing one becomes the default 30; a validated one lies in [15, 120] |
| Requests.TimePatternExamples | src/appointments/dto/create-appointment.dto.ts:26 | 00:00, 23:59, 9:00 and 7:30 are accepted; 24:00, 12:60, 12:5 and 123:00 are refused |
| Appointments.EndTime | src/appointments/appointments.service.ts:25-27 | the end time is zero-padded and denotes start plus duration modulo one day |
| Appointments.EndTimeIsPaddedSum | src/appointments/appointments.service.ts:25-27 | a padded string is the end time iff it denotes start plus duration modulo one day |
| Appointments.EndTimeWrapsAtMidnight | src/appointments/appointments.service.ts:25-27 | 23:30 plus 60 minutes gives 00:30 instead of a refusal |
| Appointments.EndTimeWithinDay | src/appointments/appointments.service.ts:25-27 | 09:00 plus 30 minutes gives 09:30 |
| Appointments.ConflictsAsWritten | src/appointments/appointments.service.ts:171-175 | definition: the three disjuncts, each a pair of string comparisons |
| Appointments.WrittenConflictIsIntersection | src/appointments/appointments.service.ts:166-176 | on padded, non-empty intervals the three-way string test holds iff the half-open minute intervals intersect |
| Appointments.TouchingAndIdenticalIntervals | src/appointments/appointments.service.ts:171-175 | back-to-back intervals do not conflict in either order; identical intervals do |
| Appointments.WrappedEndDisagreesWithIntersection | src/appointments/appointments.service.ts:171-175 | once an end wraps past midnight, the three-way string test and the intersection of the minute intervals disagree in both directions: 23:30-00:30 is reported against 23:00-23:45, whose interval does not meet the wrapped one, and not against 23:40-23:50, which the hour from 23:30 covers |
| Appointments.CheckForOverlap | src/appointments/appointments.service.ts:151-177 | the scan reports a conflict iff some record passes the query and the three-way test |
| Appointments.WrittenFilterNeverConflicts | src/appointments/appointments.service.ts:157-163 | under the filter as written no booking ever meets a conflict |
| Appointments.InWorkingHours | src/appointments/appointments.service.ts:43 | definition: the start is neither before the doctor's start nor at or after the doctor's end, in string order |
| Appointments.WorkingHoursIsMinuteWindow | src/appointments/appointments.service.ts:42-45 | on padded times the working-hours test accepts exactly starts in [doctor start, doctor end) |
| Appointments.UnpaddedStartOutsideWorkingHours | src/appointments/appointments.service.ts:43 | 9:30 lies inside 09:00-17:00, yet the string test refuses "9:30" |
| Appointments.UnpaddedStartAgainstStandardHours | src/appointments/dto/create-appointment.dto.ts:26 | for a 09:00-17:00 doctor, a validated unpadded start passes the working-hours test iff its hour is 0, and lies inside the minute window iff its hour is 9, so the test never accepts the right ones |
| Appointments.NewAppointment | src/appointments/appointments.service.ts:59-66 | definition: the request's fields with the given start, the derived end and the scheduled status |
| Appointments.Create | src/appointments/appointments.service.ts:16-69 | unknown doctor, then past (start <= now), weekend, working hours and conflict; each error iff every earlier check passed and its own fails; the saved record is scheduled, keeps the start and carries the wrapped end |
| Appointments.CreatePreservesNoDoubleBooking | src/appointments/appointments.service.ts:47-57 | with the intended filter, a padded booking that stays within the day keeps active bookings of a doctor on a day pairwise disjoint |
| Appointments.Transition | src/appointments/appointments.service.ts:128-141 | completed is final; cancelling needs a non-empty reason; otherwise exactly the status changes, and the reason only when one is given |
| Appointments.IndexOf | src/appointments/appointments.service.ts:112-123 | finds the first record with the id, and reports absence exactly when none has it |
| Appointments.UpdateStatus | src/appointments/appointments.service.ts:125-144 | an unknown id is refused; otherwise the record at the id goes through the transition and every other record is unchanged |
| Doctors.CreateDoctor | src/doctors/doctors.service.ts:15-34 | a taken e-mail is refused first, then a start not before the end in string order; creation succeeds exactly when neither check fires, and the created doctor has start before end and the effective slot length |
| Doctors.CreateDoctorKeepsEmailsUnique | src/doctors/doctors.service.ts:17-23 | creation keeps e-mail addresses unique |
| Doctors.CreatedDoctorHasWindow | src/doctors/doctors.service.ts:25-28 | a validated padded doctor has a non-empty minute window and a slot length in [15, 120] |
| Doctors.UpdateDoctor | src/doctors/doctors.service.ts:86-111 | unknown id, then a new supplied e-mail that is taken, then two supplied times out of order; the update succeeds exactly when none of these fires, and then every field present in the body is written (e-mail, both times and the slot length are spelled out), absent ones are kept, and other doctors are unchanged |
| Doctors.ApplyUpdate | src/doctors/doctors.service.ts:107 | definition: every field present in the body replaces the stored one |
| Doctors.UpdateDoctorValidated | src/doctors/doctors.controller.ts:61 | a body failing field validation is refused, before anything else; a valid body is handled as by the update |
| Doctors.ValidatedUpdateKeepsGridReady | src/doctors/doctors.service.ts:157-171 | with the body validated, an update keeps every doctor's times in the pattern and slot length positive, so the slot loop advances for all of them |
| Doctors.UnvalidatedUpdateStallsSlotLoop | src/doctors/doctors.service.ts:86 | a slot length of 0 in an update body is stored; the cursor of the slot loop then stays before the end time without advancing, and the validated update refuses the body |
| Doctors.UpdateDoctorKeepsEmailsUnique | src/doctors/doctors.service.ts:89-98 | an update that supplies a non-empty e-mail, or none, keeps e-mail addresses unique |
| Doctors.OneSidedUpdateInvertsRange | src/doctors/doctors.service.ts:100-105 | supplying only a start of 18:00 to a 09:00-17:00 doctor is accepted and leaves start after end |
| Doctors.Grid | src/doctors/doctors.service.ts:155-172 | every grid point lies in [start, end) |
| Doctors.GridCount | src/doctors/doctors.service.ts:157-172 | the grid has the least number of slots n with n * length >= end - start, that is ceil((end - start) / length) |
| Doctors.GridElements | src/doctors/doctors.service.ts:155-171 | slot i starts i slot lengths after the doctor's start |
| Doctors.GridAscends | src/doctors/doctors.service.ts:155-171 | consecutive slots differ by exactly the slot length, so the grid strictly ascends |
| Doctors.GridFirst | src/doctors/doctors.service.ts:155-158 | a non-empty grid starts at the doctor's start |
| Doctors.BookedAt | src/doctors/doctors.service.ts:137-163 | definition: some record of the doctor on the day, with a status the slot query keeps, starts at exactly the string |
| Doctors.MarkSlots | src/doctors/doctors.service.ts:158-168 | definition: each grid point rendered and tagged available unless booked |
| Doctors.Slots | src/doctors/doctors.service.ts:121-175 | definition: no slots on a weekend, otherwise the marked grid from the doctor's start to end |
| Doctors.MarkSlotsMeaning | src/doctors/doctors.service.ts:158-168 | each slot carries the padded rendering of its start and is available iff no booked record starts at that exact string |
| Doctors.SlotsMeaning | src/doctors/doctors.service.ts:121-175 | weekends give no slots; otherwise the slots are the grid rendered in order, ceil-many, each available iff nothing booked starts there |
| Doctors.WalkGrid | src/doctors/doctors.service.ts:150-174 | the loop emits exactly the grid, marked |
| Doctors.GetAvailableTimeSlots | src/doctors/doctors.service.ts:121-175 | an unknown doctor is refused; otherwise the result is the slot listing of the reference definition |
| Doctors.StandardDayGrid | src/doctors/doctors.service.ts:151-172 | 09:00-17:00 at 30 minutes gives 16 slots from 09:00 to 16:30, and 17:00 is never a slot |
| Doctors.GridRoundsUp | src/doctors/doctors.service.ts:157-171 | 09:00-10:00 at 45 minutes gives two slots; the second starts at 09:45 and runs past 10:00 |
| Doctors.UnalignedBookingsBlockNothing | src/doctors/doctors.service.ts:161-163 | records whose start is not the padded rendering of a grid point leave every slot available |
| Doctors.ValidatedDoctorOffersSlots | src/doctors/dto/create-doctor.dto.ts:35-47 | a validated, created doctor has pattern times and a positive slot length, so the slot loop at src/doctors/doctors.service.ts:157-171 advances; with padded times a weekday listing is non-empty and opens at the doctor's start |
| Doctors.ValidatedUnpaddedEndInvertsWindow | src/doctors/doctors.service.ts:26 | a validated request for 10:00-9:00 passes the string range check, and the created doctor's window is inverted in minutes and lists no slots |
| Doctors.BookingTakesItsSlot | src/doctors/doctors.service.ts:137-163 | after a successful booking, the slot query counts its start string as booked |
| Scenarios.SavedBookingConflictsWithItsTwin | src/appointments/appointments.service.ts:171-175 | a saved ordinary booking is well formed, ends at the derived end time and conflicts with a booking of the same times |
| Scenarios.WrittenFilterAdmitsDoubleBooking | test-app.js:47-58 | with the filter as written a repeated request is accepted, and the two records are a double booking |
| Scenarios.ActiveFilterRefusesDoubleBooking | test-app.js:47-58 | with the intended filter the repeated request is refused as a slot conflict |
| Scenarios.ScriptDoubleBooking | test-app.js:11-58 | the script's doctor and 10:00 booking: as written the repeat is accepted, intended it is a conflict |
| Scenarios.ReactivationReopensDoubleBooking | src/appointments/appointments.service.ts:125-144 | reactivating a cancelled booking whose slot was rebooked is accepted and breaks the no-double-booking invariant |
| Scenarios.CompletedFreesBookingButNotSlot | src/doctors/doctors.service.ts:141-147 | a completed booking blocks no new booking, yet its slot is listed as taken |
| Scenarios.LateStartRunsPastClosing | src/appointments/appointments.service.ts:42-45 | a 16:59 booking with a 09:00-17:00 doctor is accepted and ends at 17:29 |

## Left out

- HTTP controllers, NestJS modules and dependency injection: routing only.
- `findAll` of both services, with its pagination, `ILIKE` search and ordering: query building, not scheduling rules.
- The `remove` operations of both services: plain deletes.
- The response mapping and the `fullName` getters: field copying.
- Seeding: fixtures only. Its 10:00-10:30 booking shape is the one `Scenarios.ScriptDoubleBooking` uses.
- Date parsing, time zones and daylight saving. `new Date('YYYY-MM-DD')` is UTC midnight, but `getDay()` is local, so the weekday depends on the server's zone. The weekday and the current instant are inputs.
- `Date` arithmetic for the end time is modelled as wrap-around modulo 1440 minutes; a daylight-saving day is not modelled.
- Times are assumed to parse as their digits whether or not the hour is padded. The source builds `2000-01-01T9:00:00` for an unpadded hour, which the JavaScript engine parses leniently or not. Its behaviour is not modelled.
- Stored `time` columns are assumed to read back exactly as written.
- The syntax checks of e-mail, UUID and ISO date (`IsEmail`, `IsUUID`, `IsDateString`): library code.
- The database's unique constraint on doctor e-mail, which would refuse an update to the empty address when another doctor already has it.
- The race between the overlap query and the save: concurrency. The model performs them in one step.
- The `isActive` flag of a doctor is stored but never consulted by booking or slot listing, in the source as in the model.
- Doctors.GetAvailableTimeSlots: requires both doctor times to match the pattern and a positive slot length. The update path does not validate its body, so a doctor can hold other values. With a length of zero or less the source loop never ends (see "## Findings"); with an unparseable time it produces no slots. Neither listing is modelled.
- Appointments.Create: requires the start time to match the pattern, which the request validation guarantees before the service runs.
- Appointments.CreatePreservesNoDoubleBooking: stated for padded starts whose booking ends the same day; the wrapped and unpadded cases are shown to break the string test (`Appointments.WrappedEndDisagreesWithIntersection`, `Appointments.UnpaddedStartOutsideWorkingHours`).
- Doctors.UpdateDoctorKeepsEmailsUnique: stated for updates that supply no e-mail or a non-empty one. An empty string skips the check but is still written.
- `ClockTime.Less` compares characters by code point, while JavaScript compares UTF-16 code units. The two orders differ on strings that mix characters U+E000-U+FFFF with characters above U+FFFF. Only the unvalidated update body (src/doctors/doctors.service.ts:86,101-104) can carry such times to a comparison.
- `null` and fractional values in the unvalidated update body. An `Option` field models a field as present or absent, and the slot length is an integer. In the source an explicit `null` writes NULL. That clears `bio` or `imageUrl`, and for `startTime`, `endTime` or `appointmentDuration` it breaks the NOT NULL columns (src/doctors/entities/doctor.entity.ts:47-54), so the update fails. The model keeps the old value instead. A fractional slot length is stored as given, and the end time is then computed from fractional minutes. Neither case is modelled.
- The status given to `updateStatus` is one of the five statuses; the unvalidated request body could carry any string.

## Findings

| source | as written | input that shows it | evidently intended | confidence | as-written member | corrected member |
|---|---|---|---|---|---|---|
| src/appointments/appointments.service.ts:161 | the overlap query keeps statuses in the string range `BETWEEN 'scheduled' AND 'confirmed'`, which is empty because 'confirmed' sorts before 'scheduled'; no existing booking is ever considered | the end-to-end script's doctor (09:00-17:00, 30 minutes) and its 10:00 booking submitted twice, test-app.js:47-58: both are accepted | the query keeps the active statuses, `IN ('scheduled', 'confirmed')`, so the repeat is refused with a conflict | high; not executed | Scenarios.WrittenFilterAdmitsDoubleBooking | Appointments.CreatePreservesNoDoubleBooking |
| src/doctors/doctors.controller.ts:61 | the update body is typed `Partial<CreateDoctorDto>`, which carries no validation metadata, so no field of it is checked; a slot length of 0 or less is stored, and the slot loop at src/doctors/doctors.service.ts:157-171 never advances its cursor | a 09:00-17:00 doctor updated with `{"appointmentDuration": 0}`, then its slots listed for a weekday | the update body is validated as a partial of the creation body, so the slot length stays in [15, 120] | medium; not executed | Doctors.UnvalidatedUpdateStallsSlotLoop | Doctors.ValidatedUpdateKeepsGridReady |

=== FILE: appointments.dfy ===
/** The booking rules of the appointment service: end-time derivation, the
    ordered checks of appointment creation, the overlap test against a
    doctor's existing bookings, and the status transition rule. The
    repository is a sequence of appointment records. */
module Appointments {
  import opened Outcomes
  import opened ClockTime
  import opened Entities
  import opened Requests

  // ---------------------------------------------------------------------
  // End time

  /** The end of a booking: `start` placed on the fixed date 2000-01-01,
      advanced by `duration` minutes, and read back as a time of day. */
  function EndTime(start: string, duration: int): (e: string)
    requires MatchesTimePattern(start)
    ensures IsPadded(e)
    ensures ToMinutes(e) == (ToMinutes(start) + duration) % MinutesPerDay
  {
    Render((ToMinutes(start) + duration) % MinutesPerDay)
  }

  /** The end time is the unique zero-padded string denoting the start plus
      the duration, modulo one day. */
  lemma EndTimeIsPaddedSum(start: string, duration: int, e: string)
    requires MatchesTimePattern(start) && IsPadded(e)
    ensures EndTime(start, duration) == e <==> ToMinutes(e) == (ToMinutes(start) + duration) % MinutesPerDay
  {
    RenderOfPadded(e);
  }

  /** A concrete end time follows from the minute values of its two ends. */
  lemma EndTimeOfMinutes(start: string, duration: int, e: string, ms: int, me: int)
    requires MatchesTimePattern(start) && IsPadded(e)
    requires ToMinutes(start) == ms && ToMinutes(e) == me
    requires (ms + duration) % MinutesPerDay == me
    ensures EndTime(start, duration) == e
  {
    EndTimeIsPaddedSum(start, duration, e);
  }

  /** A booking whose end falls past midnight wraps to the next morning
      instead of being refused. */
  lemma EndTimeWrapsAtMidnight()
    ensures EndTime("23:30", 60) == "00:30"
  {
    EndTimeOfMinutes("23:30", 60, "00:30", 1410, 30);
  }

  /** Within the day the end is the start plus the duration. */
  lemma EndTimeWithinDay()
    ensures EndTime("09:00", 30) == "09:30"
  {
    EndTimeOfMinutes("09:00", 30, "09:30", 540, 570);
  }

  // ---------------------------------------------------------------------
  // Overlap

  /** The overlap test as written: the new start falls within the existing
      booking, the new end falls within it, or the new booking encloses it,
      each comparison being JavaScript string order. */
  predicate ConflictsAsWritten(start: string, end: string, exStart: string, exEnd: string) {
    || (AtLeast(start, exStart) && Less(start, exEnd))
    || (Greater(end, exStart) && AtMost(end, exEnd))
    || (AtMost(start, exStart) && AtLeast(end, exEnd))
  }

  /** Intersection of the half-open intervals [s, e) and [xs, xe) of minutes. */
  predicate HalfOpenOverlap(s: int, e: int, xs: int, xe: int) {
    s < xe && xs < e
  }

  /** On zero-padded times and non-empty intervals, the three-way test is
      exactly half-open interval intersection. */
  lemma WrittenConflictIsIntersection(start: string, end: string, exStart: string, exEnd: string)
    requires IsPadded(start) && IsPadded(end) && IsPadded(exStart) && IsPadded(exEnd)
    requires ToMinutes(start) < ToMinutes(end) && ToMinutes(exStart) < ToMinutes(exEnd)
    ensures ConflictsAsWritten(start, end, exStart, exEnd) <==>
              HalfOpenOverlap(ToMinutes(start), ToMinutes(end), ToMinutes(exStart), ToMinutes(exEnd))
  {
    PaddedAtMostIsMinuteOrder(start, exStart);
    PaddedAtMostIsMinuteOrder(start, exEnd);
    PaddedAtMostIsMinuteOrder(end, exStart);
    PaddedAtMostIsMinuteOrder(end, exEnd);
    PaddedOrderIsMinuteOrder(start, exEnd);
    PaddedOrderIsMinuteOrder(exStart, end);
  }

  /** Back-to-back bookings do not conflict, in either order, and a booking
      conflicts with an identical one. */
  lemma TouchingAndIdenticalIntervals(a: string, b: string, c: string)
    requires IsPadded(a) && IsPadded(b) && IsPadded(c)
    requires ToMinutes(a) < ToMinutes(b) < ToMinutes(c)
    ensures !ConflictsAsWritten(a, b, b, c) && !ConflictsAsWritten(b, c, a, b)
    ensures ConflictsAsWritten(a, b, a, b)
  {
    WrittenConflictIsIntersection(a, b, b, c);
    WrittenConflictIsIntersection(b, c, a, b);
    WrittenConflictIsIntersection(a, b, a, b);
  }

  /** Once an end time has wrapped past midnight the three-way test and
      interval intersection part ways in both directions: 23:30-00:30 is
      reported against 23:00-23:45 although the naive intervals [1410, 30)
      and [1380, 1425) do not meet, and it is not reported against
      23:40-23:50 although the hour from 23:30 covers it. */
  lemma WrappedEndDisagreesWithIntersection()
    ensures EndTime("23:30", 60) == "00:30"
    ensures ConflictsAsWritten("23:30", "00:30", "23:00", "23:45")
    ensures !HalfOpenOverlap(ToMinutes("23:30"), ToMinutes("00:30"), ToMinutes("23:00"), ToMinutes("23:45"))
    ensures !ConflictsAsWritten("23:30", "00:30", "23:40", "23:50")
    ensures HalfOpenOverlap(ToMinutes("23:30"), ToMinutes("23:30") + 60, ToMinutes("23:40"), ToMinutes("23:50"))
  {
    EndTimeWrapsAtMidnight();
  }

  /** An existing record blocks a booking of `doctorId` on `date` over
      [start, end) when the query returns it and the three-way test fires. */
  predicate Blocks(f: StatusFilter, a: Appointment, doctorId: string, date: Day, start: string, end: string) {
    && a.doctorId == doctorId
    && a.appointmentDate == date
    && Admits(f, a.status)
    && ConflictsAsWritten(start, end, a.startTime, a.endTime)
  }

  predicate HasConflict(f: StatusFilter, repo: seq<Appointment>, doctorId: string, date: Day, start: string, end: string) {
    exists i :: 0 <= i < |repo| && Blocks(f, repo[i], doctorId, date, start, end)
  }

  /** The overlap check: query the doctor's bookings for the day with the
      status filter, then scan them for a conflict. */
  method CheckForOverlap(f: StatusFilter, repo: seq<Appointment>, doctorId: string, date: Day, start: string, end: string)
    returns (found: bool)
    ensures found <==> HasConflict(f, repo, doctorId, date, start, end)
  {
    found := false;
    var i := 0;
    while i < |repo|
      invariant 0 <= i <= |repo|
      invariant !found
      invariant forall k :: 0 <= k < i ==> !Blocks(f, repo[k], doctorId, date, start, end)
    {
      if Blocks(f, repo[i], doctorId, date, start, end) {
        found := true;
        return;
      }
      i := i + 1;
    }
  }

  /** Under the filter as written no record is ever returned, so no booking
      ever meets a conflict. */
  lemma WrittenFilterNeverConflicts(repo: seq<Appointment>, doctorId: string, date: Day, start: string, end: string)
    ensures !HasConflict(WrittenOverlapFilter, repo, doctorId, date, start, end)
  {
    forall i | 0 <= i < |repo|
      ensures !Blocks(WrittenOverlapFilter, repo[i], doctorId, date, start, end)
    {
      WrittenOverlapFilterIsEmpty(repo[i].status);
    }
  }

  // ---------------------------------------------------------------------
  // Creation

  datatype BookingError = DoctorNotFound | PastDate | Weekend | OutsideWorkingHours | SlotConflict

  /** What the environment contributes to a booking: the current instant in
      minutes of the local calendar, and the weekday (0 = Sunday) that the
      requested date falls on. */
  datatype Clock = Clock(now: int, weekday: int)

  /** The instant of `time` on `date`, in minutes of the local calendar. */
  function Instant(date: Day, time: string): (t: int)
    requires MatchesTimePattern(time)
  {
    date * MinutesPerDay + ToMinutes(time)
  }

  predicate IsWeekend(weekday: int) {
    weekday == 0 || weekday == 6
  }

  /** The working-hours test: the start is neither before the doctor's start
      nor at or after the doctor's end, in string order. The end of the
      booking is not consulted. */
  predicate InWorkingHours(d: Doctor, start: string) {
    !(Less(start, d.startTime) || AtLeast(start, d.endTime))
  }

  /** On zero-padded strings the working-hours test is the window
      [startTime, endTime) of minutes. */
  lemma WorkingHoursIsMinuteWindow(d: Doctor, start: string)
    requires IsPadded(start) && IsPadded(d.startTime) && IsPadded(d.endTime)
    ensures InWorkingHours(d, start) <==>
              ToMinutes(d.startTime) <= ToMinutes(start) < ToMinutes(d.endTime)
  {
    PaddedOrderIsMinuteOrder(start, d.startTime);
    PaddedOrderIsMinuteOrder(start, d.endTime);
  }

  /** An unpadded start inside the window is refused: 9:30 lies within
      09:00-17:00, yet "9:30" sorts after "17:00". */
  lemma UnpaddedStartOutsideWorkingHours(d: Doctor)
    requires d.startTime == "09:00" && d.endTime == "17:00"
    ensures ToMinutes(d.startTime) <= ToMinutes("9:30") < ToMinutes(d.endTime)
    ensures !InWorkingHours(d, "9:30")
  {
    assert Less("17:00", "9:30");
  }

  /** Against 09:00-17:00 the string test misjudges the validated unpadded
      starts wherever it matters: it accepts exactly "0:00"-"0:59", all before
      opening, and refuses "9:00"-"9:59", the only unpadded starts inside the
      window. */
  lemma UnpaddedStartAgainstStandardHours(d: Doctor, req: CreateAppointmentRequest)
    requires d.startTime == "09:00" && d.endTime == "17:00"
    requires ValidCreateAppointment(req) && |req.startTime| == 4
    ensures InWorkingHours(d, req.startTime) <==> req.startTime[0] == '0'
    ensures ToMinutes(d.startTime) <= ToMinutes(req.startTime) < ToMinutes(d.endTime)
            <==> req.startTime[0] == '9'
  {
    var s := req.startTime;
    assert s[1] == ':';
    assert !Less(s, "09:00") by {
      if s[0] == '0' {
        assert s[1..][0] == ':' && "09:00"[1..] == "9:00";
      }
    }
    assert Less(s, "17:00") <==> s[0] == '0' by {
      if s[0] == '1' {
        assert s[1..][0] == ':' && "17:00"[1..] == "7:00";
      }
    }
    assert ToMinutes("09:00") == 540 && ToMinutes("17:00") == 1020;
  }

  /** The record a successful booking saves: the request's fields, the given
      start time, the derived end time and the Scheduled status. */
  function NewAppointment(req: CreateAppointmentRequest, id: string, endTime: string): (a: Appointment) {
    Appointment(id, req.doctorId, req.patientFirstName, req.patientLastName, req.patientEmail,
                req.patientPhone, req.appointmentDate, req.startTime, endTime, Scheduled,
                req.notes, None)
  }

  /** Appointment creation. `f` is the status filter of the overlap query;
      `id` is the identity the repository assigns on save. */
  function Create(f: StatusFilter, doctors: seq<Doctor>, repo: seq<Appointment>,
                  req: CreateAppointmentRequest, clock: Clock, id: string): (r: Result<Appointment, BookingError>)
    requires MatchesTimePattern(req.startTime)
    ensures FindDoctor(doctors, req.doctorId).None? ==> r == Err(DoctorNotFound)
    ensures FindDoctor(doctors, req.doctorId).Some? ==>
              var d := FindDoctor(doctors, req.doctorId).value;
              var end := EndTime(req.startTime, d.appointmentDuration);
              && (r == Err(PastDate) <==> Instant(req.appointmentDate, req.startTime) <= clock.now)
              && (r == Err(Weekend) <==>
                    Instant(req.appointmentDate, req.startTime) > clock.now && IsWeekend(clock.weekday))
              && (r == Err(OutsideWorkingHours) <==>
                    && Instant(req.appointmentDate, req.startTime) > clock.now
                    && !IsWeekend(clock.weekday)
                    && !InWorkingHours(d, req.startTime))
              && (r.Ok? <==>
                    && Instant(req.appointmentDate, req.startTime) > clock.now
                    && !IsWeekend(clock.weekday)
                    && InWorkingHours(d, req.startTime)
                    && !HasConflict(f, repo, req.doctorId, req.appointmentDate, req.startTime, end))
              && (r.Err? ==> r.error != DoctorNotFound)
    ensures r.Ok? ==>
              && r.value.status == Scheduled
              && r.value.startTime == req.startTime
              && IsPadded(r.value.endTime)
              && ToMinutes(r.value.endTime) ==
                   (ToMinutes(req.startTime) + FindDoctor(doctors, req.doctorId).value.appointmentDuration) % MinutesPerDay
              && r.value.cancellationReason.None?
              && r.value == NewAppointment(req, id, r.value.endTime)
  {
    match FindDoctor(doctors, req.doctorId)
    case None => Err(DoctorNotFound)
    case Some(d) =>
      var end := EndTime(req.startTime, d.appointmentDuration);
      if Instant(req.appointmentDate, req.startTime) <= clock.now then Err(PastDate)
      else if IsWeekend(clock.weekday) then Err(Weekend)
      else if !InWorkingHours(d, req.startTime) then Err(OutsideWorkingHours)
      else if HasConflict(f, repo, req.doctorId, req.appointmentDate, req.startTime, end) then Err(SlotConflict)
      else Ok(NewAppointment(req, id, end))
  }

  // ---------------------------------------------------------------------
  // The double-booking invariant

  /** A record whose times are zero-padded and whose interval is non-empty. */
  predicate WellFormed(a: Appointment) {
    IsPadded(a.startTime) && IsPadded(a.endTime) && ToMinutes(a.startTime) < ToMinutes(a.endTime)
  }

  /** Two active bookings of one doctor on one day whose minute intervals meet. */
  predicate Clash(a: Appointment, b: Appointment) {
    && a.doctorId == b.doctorId
    && a.appointmentDate == b.appointmentDate
    && IsActive(a.status) && IsActive(b.status)
    && MatchesTimePattern(a.startTime) && MatchesTimePattern(a.endTime)
    && MatchesTimePattern(b.startTime) && MatchesTimePattern(b.endTime)
    && HalfOpenOverlap(ToMinutes(a.startTime), ToMinutes(a.endTime), ToMinutes(b.startTime), ToMinutes(b.endTime))
  }

  /** No two active bookings of a doctor on a day overlap. */
  predicate NoDoubleBooking(repo: seq<Appointment>) {
    forall i, j :: 0 <= i < j < |repo| ==> !Clash(repo[i], repo[j])
  }

  /** With the intended status filter, a booking of zero-padded times that
      does not run past midnight keeps the repository free of double bookings. */
  lemma CreatePreservesNoDoubleBooking(doctors: seq<Doctor>, repo: seq<Appointment>,
                                       req: CreateAppointmentRequest, clock: Clock, id: string)
    requires NoDoubleBooking(repo)
    requires forall i :: 0 <= i < |repo| ==> WellFormed(repo[i])
    requires IsPadded(req.startTime)
    requires Create(ActiveFilter, doctors, repo, req, clock, id).Ok?
    requires 0 < FindDoctor(doctors, req.doctorId).value.appointmentDuration
    requires ToMinutes(req.startTime) + FindDoctor(doctors, req.doctorId).value.appointmentDuration < MinutesPerDay
    ensures WellFormed(Create(ActiveFilter, doctors, repo, req, clock, id).value)
    ensures NoDoubleBooking(repo + [Create(ActiveFilter, doctors, repo, req, clock, id).value])
  {
    var a := Create(ActiveFilter, doctors, repo, req, clock, id).value;
    var repo' := repo + [a];
    forall i, j | 0 <= i < j < |repo'|
      ensures !Clash(repo'[i], repo'[j])
    {
      if j == |repo| {
        var b := repo[i];
        assert !Blocks(ActiveFilter, b, req.doctorId, req.appointmentDate, a.startTime, a.endTime);
        WrittenConflictIsIntersection(a.startTime, a.endTime, b.startTime, b.endTime);
        ActiveFilterIsActive(b.status);
      } else {
        assert repo'[i] == repo[i] && repo'[j] == repo[j];
      }
    }
  }

  // ---------------------------------------------------------------------
  // Status transitions

  datatype StatusError = AppointmentNotFound | CompletedIsFinal | ReasonRequired

  /** The status transition rule applied to one record. */
  function Transition(a: Appointment, status: Status, reason: Option<string>): (r: Result<Appointment, StatusError>)
    ensures a.status == Completed ==> r == Err(CompletedIsFinal)
    ensures r.Ok? <==> a.status != Completed && (status == Cancelled ==> Supplied(reason))
    ensures r.Err? && a.status != Completed ==> r.error == ReasonRequired && status == Cancelled
    ensures r.Ok? ==> r.value.status == status
    ensures r.Ok? && Supplied(reason) ==> r.value.cancellationReason == reason
    ensures r.Ok? && !Supplied(reason) ==> r.value.cancellationReason == a.cancellationReason
    ensures r.Ok? ==> r.value.(status := a.status, cancellationReason := a.cancellationReason) == a
  {
    if a.status == Completed then Err(CompletedIsFinal)
    else if status == Cancelled && !Supplied(reason) then Err(ReasonRequired)
    else
      var withStatus := a.(status := status);
      Ok(if Supplied(reason) then withStatus.(cancellationReason := reason) else withStatus)
  }

  /** Position of the first record with the given id, or -1. */
  function IndexOf(repo: seq<Appointment>, id: string): (k: int)
    ensures -1 <= k < |repo|
    ensures k == -1 <==> forall i :: 0 <= i < |repo| ==> repo[i].id != id
    ensures k >= 0 ==> repo[k].id == id && forall i :: 0 <= i < k ==> repo[i].id != id
  {
    FirstWithId(repo, (a: Appointment) => a.id, id)
  }

  /** Status update of the record with the given id; the repository after the save. */
  function UpdateStatus(repo: seq<Appointment>, id: string, status: Status, reason: Option<string>)
    : (r: Result<seq<Appointment>, StatusError>)
    ensures IndexOf(repo, id) == -1 ==> r == Err(AppointmentNotFound)
    ensures IndexOf(repo, id) >= 0 ==>
              var k := IndexOf(repo, id);
              && (r.Ok? <==> Transition(repo[k], status, reason).Ok?)
              && (r.Ok? ==>
                    && |r.value| == |repo|
                    && r.value[k] == Transition(repo[k], status, reason).value
                    && forall i :: 0 <= i < |repo| && i != k ==> r.value[i] == repo[i])
              && (r.Err? ==> r.error == Transition(repo[k], status, reason).error)
  {
    var k := IndexOf(repo, id);
    if k == -1 then Err(AppointmentNotFound)
    else
      match Transition(repo[k], status, reason)
      case Err(e) => Err(e)
      case Ok(a) => Ok(repo[k := a])
  }
}

=== FILE: clock_time.dfy ===
/** Times of day as the services see them: `HH:MM` strings on the wire and in
    the database, compared with JavaScript's string order, and the
    minutes-since-midnight values that the `Date` arithmetic works with. */
module ClockTime {

  /** Minutes in one day; end times computed on the fixed date 2000-01-01 wrap here. */
  const MinutesPerDay: int := 1440

  predicate IsDigit(c: char) {
    '0' <= c <= '9'
  }

  function DigitValue(c: char): (d: int)
    requires IsDigit(c)
    ensures 0 <= d <= 9
  {
    c as int - '0' as int
  }

  function DigitChar(d: int): (c: char)
    requires 0 <= d <= 9
    ensures IsDigit(c) && DigitValue(c) == d
  {
    ('0' as int + d) as char
  }

  /** The two-digit hour alternatives `[01][0-9]` and `2[0-3]` of the time pattern. */
  predicate IsTwoDigitHour(c0: char, c1: char) {
    ('0' <= c0 <= '1' && IsDigit(c1)) || (c0 == '2' && '0' <= c1 <= '3')
  }

  /** The tail `:[0-5][0-9]` of the time pattern, starting at index k. */
  predicate IsMinuteTail(s: string, k: nat)
    requires k + 3 == |s|
  {
    s[k] == ':' && '0' <= s[k + 1] <= '5' && IsDigit(s[k + 2])
  }

  /** The whole pattern `^([01]?[0-9]|2[0-3]):[0-5][0-9]$`: an hour of one
      digit, or of two digits up to 23, a colon, and exactly two minute
      digits 00-59. */
  predicate MatchesTimePattern(s: string) {
    || (|s| == 4 && IsDigit(s[0]) && IsMinuteTail(s, 1))
    || (|s| == 5 && IsTwoDigitHour(s[0], s[1]) && IsMinuteTail(s, 2))
  }

  /** The zero-padded form `HH:MM`, the only form `Date.toTimeString` produces. */
  predicate IsPadded(s: string) {
    MatchesTimePattern(s) && |s| == 5
  }

  function Hour(s: string): (h: int)
    requires MatchesTimePattern(s)
    ensures 0 <= h < 24
    ensures |s| == 4 ==> h < 10
  {
    if |s| == 4 then DigitValue(s[0]) else 10 * DigitValue(s[0]) + DigitValue(s[1])
  }

  function Minute(s: string): (m: int)
    requires MatchesTimePattern(s)
    ensures 0 <= m < 60
  {
    10 * DigitValue(s[|s| - 2]) + DigitValue(s[|s| - 1])
  }

  /** Minutes since midnight denoted by an accepted time string, reading the
      hour digits numerically whether or not the hour is padded. */
  function ToMinutes(s: string): (m: int)
    requires MatchesTimePattern(s)
    ensures 0 <= m < MinutesPerDay
  {
    Hour(s) * 60 + Minute(s)
  }

  /** `toTimeString().slice(0, 5)`: the zero-padded rendering of a minute of the day. */
  function Render(m: int): (s: string)
    requires 0 <= m < MinutesPerDay
    ensures IsPadded(s)
    ensures ToMinutes(s) == m
  {
    var h := m / 60;
    var mm := m % 60;
    [DigitChar(h / 10), DigitChar(h % 10), ':', DigitChar(mm / 10), DigitChar(mm % 10)]
  }

  /** The unpadded rendering `H:MM` that the pattern also admits for hours 0-9. */
  function RenderShort(m: int): (s: string)
    requires 0 <= m < 600
    ensures MatchesTimePattern(s) && |s| == 4
    ensures ToMinutes(s) == m
  {
    var mm := m % 60;
    [DigitChar(m / 60), ':', DigitChar(mm / 10), DigitChar(mm % 10)]
  }

  lemma DigitRoundTrip(c: char)
    requires IsDigit(c)
    ensures DigitChar(DigitValue(c)) == c
  {
  }

  /** Rendering is the inverse of parsing on padded strings. */
  lemma RenderOfPadded(s: string)
    requires IsPadded(s)
    ensures Render(ToMinutes(s)) == s
  {
    var h, mm := Hour(s), Minute(s);
    var m := ToMinutes(s);
    assert m == h * 60 + mm;
    assert m / 60 == h && m % 60 == mm;
    assert h / 10 == DigitValue(s[0]) && h % 10 == DigitValue(s[1]);
    assert mm / 10 == DigitValue(s[3]) && mm % 10 == DigitValue(s[4]);
    DigitRoundTrip(s[0]);
    DigitRoundTrip(s[1]);
    DigitRoundTrip(s[3]);
    DigitRoundTrip(s[4]);
    var r := Render(m);
    assert r[0] == s[0] && r[1] == s[1] && r[2] == s[2] && r[3] == s[3] && r[4] == s[4];
  }

  /** Unpadded rendering is the inverse of parsing on four-character times. */
  lemma RenderShortOfUnpadded(s: string)
    requires MatchesTimePattern(s) && |s| == 4
    ensures ToMinutes(s) < 600 && RenderShort(ToMinutes(s)) == s
  {
    var h, mm := Hour(s), Minute(s);
    var m := ToMinutes(s);
    assert m == h * 60 + mm;
    assert m / 60 == h && m % 60 == mm;
    assert h == DigitValue(s[0]);
    assert mm / 10 == DigitValue(s[2]) && mm % 10 == DigitValue(s[3]);
    DigitRoundTrip(s[0]);
    DigitRoundTrip(s[2]);
    DigitRoundTrip(s[3]);
    var r := RenderShort(m);
    assert r[0] == s[0] && r[1] == s[1] && r[2] == s[2] && r[3] == s[3];
  }

  /** The language of the time pattern is exactly the padded renderings of the
      1440 minutes of a day plus the unpadded renderings of hours 0-9. */
  lemma TimePatternLanguage(s: string)
    ensures MatchesTimePattern(s) <==>
              (exists m :: 0 <= m < MinutesPerDay && s == Render(m))
              || (exists m :: 0 <= m < 600 && s == RenderShort(m))
  {
    if MatchesTimePattern(s) {
      if |s| == 5 {
        RenderOfPadded(s);
      } else {
        RenderShortOfUnpadded(s);
      }
    }
  }

  /** JavaScript's `<` on strings: lexicographic comparison, character by
      character, where a proper prefix is smaller. Characters compare by code
      point; JavaScript compares UTF-16 code units, and the two orders agree
      on every string the time pattern admits. */
  predicate Less(a: string, b: string)
    decreases |a|
  {
    if |a| == 0 then |b| > 0
    else if |b| == 0 then false
    else if a[0] != b[0] then a[0] < b[0]
    else Less(a[1..], b[1..])
  }

  /** JavaScript's `>`, `<=` and `>=` on strings, each defined through `<`. */
  predicate Greater(a: string, b: string) {
    Less(b, a)
  }

  predicate AtMost(a: string, b: string) {
    !Less(b, a)
  }

  predicate AtLeast(a: string, b: string) {
    !Less(a, b)
  }

  lemma {:induction false} LessIrreflexive(a: string)
    ensures !Less(a, a)
    decreases |a|
  {
    if |a| > 0 {
      LessIrreflexive(a[1..]);
    }
  }

  lemma {:induction false} LessAsymmetric(a: string, b: string)
    ensures Less(a, b) ==> !Less(b, a)
    decreases |a|
  {
    if |a| > 0 && |b| > 0 && a[0] == b[0] {
      LessAsymmetric(a[1..], b[1..]);
    }
  }

  lemma {:induction false} LessTotal(a: string, b: string)
    ensures a == b || Less(a, b) || Less(b, a)
    decreases |a|
  {
    if |a| > 0 && |b| > 0 && a[0] == b[0] {
      LessTotal(a[1..], b[1..]);
      if a[1..] == b[1..] {
        assert a == [a[0]] + a[1..] && b == [b[0]] + b[1..];
      }
    }
  }

  lemma {:induction false} LessTransitive(a: string, b: string, c: string)
    requires Less(a, b) && Less(b, c)
    ensures Less(a, c)
    decreases |a|
  {
    if |a| > 0 && a[0] == b[0] && b[0] == c[0] {
      LessTransitive(a[1..], b[1..], c[1..]);
    }
  }

  /** For zero-padded strings, string order is the order of the minutes they denote. */
  lemma PaddedOrderIsMinuteOrder(s: string, t: string)
    requires IsPadded(s) && IsPadded(t)
    ensures Less(s, t) <==> ToMinutes(s) < ToMinutes(t)
  {
    var s0, s1, s3, s4 := DigitValue(s[0]), DigitValue(s[1]), DigitValue(s[3]), DigitValue(s[4]);
    var t0, t1, t3, t4 := DigitValue(t[0]), DigitValue(t[1]), DigitValue(t[3]), DigitValue(t[4]);
    assert ToMinutes(s) == 600 * s0 + 60 * s1 + 10 * s3 + s4;
    assert ToMinutes(t) == 600 * t0 + 60 * t1 + 10 * t3 + t4;
    if s[0] != t[0] {
      assert Less(s, t) <==> s0 < t0;
    } else if s[1] != t[1] {
      assert Less(s, t) == Less(s[1..], t[1..]);
      assert Less(s, t) <==> s1 < t1;
    } else {
      assert Less(s, t) == Less(s[1..], t[1..]) == Less(s[2..], t[2..]) by {
        assert s[1..][1..] == s[2..] && t[1..][1..] == t[2..];
      }
      assert s[2] == t[2];
      assert Less(s[2..], t[2..]) == Less(s[3..], t[3..]) by {
        assert s[2..][1..] == s[3..] && t[2..][1..] == t[3..];
      }
      if s[3] != t[3] {
        assert Less(s[3..], t[3..]) <==> s3 < t3;
      } else {
        assert Less(s[3..], t[3..]) == Less(s[4..], t[4..]) by {
          assert s[3..][1..] == s[4..] && t[3..][1..] == t[4..];
        }
        assert Less(s[4..], t[4..]) <==> s[4] < t[4] by {
          assert s[4..][1..] == [] && t[4..][1..] == [];
        }
      }
    }
  }

  /** The same holds for the non-strict comparisons. */
  lemma PaddedAtMostIsMinuteOrder(s: string, t: string)
    requires IsPadded(s) && IsPadded(t)
    ensures AtMost(s, t) <==> ToMinutes(s) <= ToMinutes(t)
    ensures AtLeast(s, t) <==> ToMinutes(s) >= ToMinutes(t)
  {
    PaddedOrderIsMinuteOrder(s, t);
    PaddedOrderIsMinuteOrder(t, s);
  }

  /** The unpadded form the pattern admits breaks the correspondence: 9:00 is
      the earlier time, yet "10:00" < "9:00" as strings. */
  lemma UnpaddedHourBreaksOrder()
    ensures MatchesTimePattern("9:00") && MatchesTimePattern("10:00")
    ensures ToMinutes("9:00") < ToMinutes("10:00")
    ensures Less("10:00", "9:00")
  {
  }
}

=== FILE: doctors.dfy ===
/** The rules of the doctor service: e-mail uniqueness and the working-hours
    range on creation and update, and the grid of bookable slots for a day.
    The repositories are sequences of records. */
module Doctors {
  import opened Outcomes
  import opened ClockTime
  import opened Entities
  import opened Requests
  import Appointments

  /** `InvalidBody` is the refusal of a body that fails field validation,
      which only the validated update below can give. */
  datatype DoctorError = DoctorNotFound | DuplicateEmail | InvalidTimeRange | InvalidBody

  // ---------------------------------------------------------------------
  // Creation and update

  predicate EmailTaken(doctors: seq<Doctor>, email: string) {
    exists i :: 0 <= i < |doctors| && doctors[i].email == email
  }

  /** No two doctors share an e-mail address. */
  predicate EmailsUnique(doctors: seq<Doctor>) {
    forall i, j :: 0 <= i < j < |doctors| ==> doctors[i].email != doctors[j].email
  }

  /** The record saved for a creation request, with the column defaults filled in. */
  function NewDoctor(req: CreateDoctorRequest, id: string): (d: Doctor) {
    Doctor(id, req.firstName, req.lastName, req.email, req.phone, req.specialization,
           req.bio, req.imageUrl, if req.isActive.Some? then req.isActive.value else true,
           req.startTime, req.endTime, EffectiveDuration(req))
  }

  /** Doctor creation: a taken e-mail is refused first, then a start time that
      is not before the end time in string order. */
  function CreateDoctor(doctors: seq<Doctor>, req: CreateDoctorRequest, id: string): (r: Result<Doctor, DoctorError>)
    ensures r == Err(DuplicateEmail) <==> EmailTaken(doctors, req.email)
    ensures r == Err(InvalidTimeRange) <==> !EmailTaken(doctors, req.email) && AtLeast(req.startTime, req.endTime)
    ensures r.Err? ==> r.error != DoctorNotFound
    ensures r.Ok? <==> !EmailTaken(doctors, req.email) && Less(req.startTime, req.endTime)
    ensures r.Ok? ==>
              && Less(r.value.startTime, r.value.endTime)
              && r.value.email == req.email
              && r.value.appointmentDuration == EffectiveDuration(req)
              && r.value == NewDoctor(req, id)
  {
    if EmailTaken(doctors, req.email) then Err(DuplicateEmail)
    else if AtLeast(req.startTime, req.endTime) then Err(InvalidTimeRange)
    else Ok(NewDoctor(req, id))
  }

  /** Saving a created doctor keeps e-mail addresses unique. */
  lemma CreateDoctorKeepsEmailsUnique(doctors: seq<Doctor>, req: CreateDoctorRequest, id: string)
    requires EmailsUnique(doctors)
    requires CreateDoctor(doctors, req, id).Ok?
    ensures EmailsUnique(doctors + [CreateDoctor(doctors, req, id).value])
  {
    var all := doctors + [CreateDoctor(doctors, req, id).value];
    forall i, j | 0 <= i < j < |all|
      ensures all[i].email != all[j].email
    {
      if j == |doctors| {
        assert all[i] == doctors[i];
      } else {
        assert all[i] == doctors[i] && all[j] == doctors[j];
      }
    }
  }

  /** A validated, zero-padded creation request that succeeds yields a doctor
      whose working window is a non-empty range of minutes and whose slot
      length is within bounds, so positive. */
  lemma CreatedDoctorHasWindow(doctors: seq<Doctor>, req: CreateDoctorRequest, id: string)
    requires ValidCreateDoctor(req) && IsPadded(req.startTime) && IsPadded(req.endTime)
    requires CreateDoctor(doctors, req, id).Ok?
    ensures var d := CreateDoctor(doctors, req, id).value;
            ToMinutes(d.startTime) < ToMinutes(d.endTime) && 15 <= d.appointmentDuration <= 120
  {
    PaddedOrderIsMinuteOrder(req.startTime, req.endTime);
  }

  function Pick<T>(o: Option<T>, current: T): (v: T) {
    if o.Some? then o.value else current
  }

  /** The record after the update writes every field present in the body. */
  function ApplyUpdate(d: Doctor, u: DoctorUpdate): (after: Doctor) {
    d.(firstName := Pick(u.firstName, d.firstName),
       lastName := Pick(u.lastName, d.lastName),
       email := Pick(u.email, d.email),
       phone := Pick(u.phone, d.phone),
       specialization := Pick(u.specialization, d.specialization),
       bio := if u.bio.Some? then u.bio else d.bio,
       imageUrl := if u.imageUrl.Some? then u.imageUrl else d.imageUrl,
       isActive := Pick(u.isActive, d.isActive),
       startTime := Pick(u.startTime, d.startTime),
       endTime := Pick(u.endTime, d.endTime),
       appointmentDuration := Pick(u.appointmentDuration, d.appointmentDuration))
  }

  /** Doctor update; the repository after the write. The e-mail is checked only
      when a new, different one is supplied, and the time range only when both
      times are supplied. */
  function UpdateDoctor(doctors: seq<Doctor>, id: string, u: DoctorUpdate): (r: Result<seq<Doctor>, DoctorError>)
    ensures DoctorIndex(doctors, id) == -1 <==> r == Err(DoctorNotFound)
    ensures DoctorIndex(doctors, id) >= 0 ==>
              var k := DoctorIndex(doctors, id);
              && (r == Err(DuplicateEmail) <==>
                    Supplied(u.email) && u.email.value != doctors[k].email && EmailTaken(doctors, u.email.value))
              && (r == Err(InvalidTimeRange) <==>
                    && !(Supplied(u.email) && u.email.value != doctors[k].email && EmailTaken(doctors, u.email.value))
                    && Supplied(u.startTime) && Supplied(u.endTime)
                    && AtLeast(u.startTime.value, u.endTime.value))
              && (r.Ok? <==>
                    && !(Supplied(u.email) && u.email.value != doctors[k].email && EmailTaken(doctors, u.email.value))
                    && !(Supplied(u.startTime) && Supplied(u.endTime) && AtLeast(u.startTime.value, u.endTime.value)))
              && (r.Ok? ==>
                    && |r.value| == |doctors|
                    && r.value[k].id == id
                    && r.value[k] == ApplyUpdate(doctors[k], u)
                    && (Supplied(u.startTime) && Supplied(u.endTime) ==>
                          Less(r.value[k].startTime, r.value[k].endTime))
                    && (u.email.Some? ==> r.value[k].email == u.email.value)
                    && (u.email.None? ==> r.value[k].email == doctors[k].email)
                    && (u.startTime.Some? ==> r.value[k].startTime == u.startTime.value)
                    && (u.startTime.None? ==> r.value[k].startTime == doctors[k].startTime)
                    && (u.endTime.Some? ==> r.value[k].endTime == u.endTime.value)
                    && (u.endTime.None? ==> r.value[k].endTime == doctors[k].endTime)
                    && (u.appointmentDuration.Some? ==>
                          r.value[k].appointmentDuration == u.appointmentDuration.value)
                    && (u.appointmentDuration.None? ==>
                          r.value[k].appointmentDuration == doctors[k].appointmentDuration)
                    && forall i :: 0 <= i < |doctors| && i != k ==> r.value[i] == doctors[i])
  {
    var k := DoctorIndex(doctors, id);
    if k == -1 then Err(DoctorNotFound)
    else
      var d := doctors[k];
      if Supplied(u.email) && u.email.value != d.email && EmailTaken(doctors, u.email.value) then Err(DuplicateEmail)
      else if Supplied(u.startTime) && Supplied(u.endTime) && AtLeast(u.startTime.value, u.endTime.value) then
        Err(InvalidTimeRange)
      else Ok(doctors[k := ApplyUpdate(d, u)])
  }

  /** An update that supplies a new e-mail, or none, keeps e-mail addresses unique. */
  lemma UpdateDoctorKeepsEmailsUnique(doctors: seq<Doctor>, id: string, u: DoctorUpdate)
    requires EmailsUnique(doctors)
    requires u.email.None? || Supplied(u.email)
    requires UpdateDoctor(doctors, id, u).Ok?
    ensures EmailsUnique(UpdateDoctor(doctors, id, u).value)
  {
    var k := DoctorIndex(doctors, id);
    var after := UpdateDoctor(doctors, id, u).value;
    forall i, j | 0 <= i < j < |after|
      ensures after[i].email != after[j].email
    {
      if i == k || j == k {
        var other := if i == k then j else i;
        assert after[other] == doctors[other];
        if u.email.Some? && u.email.value != doctors[k].email {
          assert !EmailTaken(doctors, u.email.value);
        }
      } else {
        assert after[i] == doctors[i] && after[j] == doctors[j];
      }
    }
  }

  /** The update with its body validated field by field, as the creation
      body is: an invalid body is refused before the doctor is looked up. */
  function UpdateDoctorValidated(doctors: seq<Doctor>, id: string, u: DoctorUpdate)
    : (r: Result<seq<Doctor>, DoctorError>)
    ensures r == Err(InvalidBody) <==> !ValidDoctorUpdate(u)
    ensures ValidDoctorUpdate(u) ==> r == UpdateDoctor(doctors, id, u)
  {
    if !ValidDoctorUpdate(u) then Err(InvalidBody) else UpdateDoctor(doctors, id, u)
  }

  /** Every doctor of the repository can be listed. */
  predicate AllGridReady(doctors: seq<Doctor>) {
    forall i :: 0 <= i < |doctors| ==> GridReady(doctors[i])
  }

  /** With the body validated, an update keeps every doctor listable: times
      stay in the pattern and the slot length stays positive. */
  lemma ValidatedUpdateKeepsGridReady(doctors: seq<Doctor>, id: string, u: DoctorUpdate)
    requires AllGridReady(doctors)
    requires UpdateDoctorValidated(doctors, id, u).Ok?
    ensures AllGridReady(UpdateDoctorValidated(doctors, id, u).value)
  {
    var k := DoctorIndex(doctors, id);
    var after := UpdateDoctorValidated(doctors, id, u).value;
    forall i | 0 <= i < |after|
      ensures GridReady(after[i])
    {
      if i == k {
        assert GridReady(doctors[k]);
      } else {
        assert after[i] == doctors[i];
      }
    }
  }

  /** The update body is not validated, so a slot length of 0 is stored. The
      doctor then fails `GridReady`: the slot loop's cursor never advances
      while it stays before the end time. The validated update refuses the
      same body. */
  lemma UnvalidatedUpdateStallsSlotLoop(d: Doctor)
    requires GridReady(d) && ToMinutes(d.startTime) < ToMinutes(d.endTime)
    ensures var u := DoctorUpdate(None, None, None, None, None, None, None, None, None, None, Some(0));
            var r := UpdateDoctor([d], d.id, u);
            && r.Ok? && r.value[0].appointmentDuration == 0 && !GridReady(r.value[0])
            && UpdateDoctorValidated([d], d.id, u) == Err(InvalidBody)
            && var cursor := ToMinutes(r.value[0].startTime);
               cursor + r.value[0].appointmentDuration == cursor < ToMinutes(r.value[0].endTime)
  {
    assert DoctorIndex([d], d.id) == 0;
  }

  /** Supplying only one of the two times skips the range check, so an update
      can leave a doctor whose start is not before its end. */
  lemma OneSidedUpdateInvertsRange(d: Doctor)
    requires d.startTime == "09:00" && d.endTime == "17:00"
    ensures var u := DoctorUpdate(None, None, None, None, None, None, None, None, Some("18:00"), None, None);
            var r := UpdateDoctor([d], d.id, u);
            r.Ok? && r.value[0].startTime == "18:00" && r.value[0].endTime == "17:00"
            && AtLeast(r.value[0].startTime, r.value[0].endTime)
  {
    assert DoctorIndex([d], d.id) == 0;
    assert Less("17:00", "18:00");
  }

  // ---------------------------------------------------------------------
  // Slot grid

  /** One entry of the slot listing. */
  datatype Slot = Slot(time: string, available: bool)

  /** Slot starts from `cursor`, stepping by `step` while the cursor is before `end`. */
  function Grid(cursor: int, end: int, step: int): (g: seq<int>)
    requires step > 0
    ensures forall i :: 0 <= i < |g| ==> cursor <= g[i] < end
    decreases end - cursor
  {
    if cursor < end then [cursor] + Grid(cursor + step, end, step) else []
  }

  /** The grid holds the ceiling of (end - cursor) / step slots: the least
      count whose slots reach the end. */
  lemma {:induction false} GridCount(cursor: int, end: int, step: int)
    requires step > 0
    ensures cursor >= end ==> |Grid(cursor, end, step)| == 0
    ensures cursor < end ==>
              var n := |Grid(cursor, end, step)|;
              (n - 1) * step < end - cursor <= n * step
    decreases end - cursor
  {
    if cursor < end {
      GridCount(cursor + step, end, step);
      var n := |Grid(cursor + step, end, step)|;
      assert |Grid(cursor, end, step)| == n + 1;
      assert (n + 1) * step == n * step + step;
    }
  }

  /** Slot i of the grid starts i steps after the cursor. */
  lemma {:induction false} GridElements(cursor: int, end: int, step: int)
    requires step > 0
    ensures forall i :: 0 <= i < |Grid(cursor, end, step)| ==> Grid(cursor, end, step)[i] == cursor + i * step
    decreases end - cursor
  {
    if cursor < end {
      GridElements(cursor + step, end, step);
      var rest := Grid(cursor + step, end, step);
      var g := Grid(cursor, end, step);
      assert g == [cursor] + rest;
      forall i | 0 <= i < |g|
        ensures g[i] == cursor + i * step
      {
        if i > 0 {
          assert g[i] == rest[i - 1] == cursor + step + (i - 1) * step;
        }
      }
    }
  }

  /** Consecutive slots differ by exactly the step, so the grid strictly ascends. */
  lemma {:induction false} GridAscends(cursor: int, end: int, step: int)
    requires step > 0
    ensures var g := Grid(cursor, end, step);
            && (forall i :: 0 <= i < |g| - 1 ==> g[i + 1] == g[i] + step)
            && (forall i, j :: 0 <= i < j < |g| ==> g[i] < g[j])
    decreases end - cursor
  {
    if cursor < end {
      GridAscends(cursor + step, end, step);
      var rest := Grid(cursor + step, end, step);
      var g := Grid(cursor, end, step);
      assert g == [cursor] + rest;
      if |rest| > 0 {
        GridFirst(cursor + step, end, step);
      }
      forall i, j | 0 <= i < j < |g|
        ensures g[i] < g[j]
      {
        if i > 0 {
          assert g[i] == rest[i - 1] && g[j] == rest[j - 1];
        }
      }
    }
  }

  /** A non-empty grid starts at the cursor. */
  lemma GridFirst(cursor: int, end: int, step: int)
    requires step > 0 && cursor < end
    ensures |Grid(cursor, end, step)| > 0 && Grid(cursor, end, step)[0] == cursor
  {
  }

  /** A slot is booked when a record of the doctor on the day, with a status
      the slot query keeps, starts at exactly that time string. */
  predicate BookedAt(repo: seq<Appointment>, doctorId: string, date: Day, time: string) {
    exists j :: 0 <= j < |repo| && repo[j].doctorId == doctorId && repo[j].appointmentDate == date
                && Admits(BookedFilter, repo[j].status) && repo[j].startTime == time
  }

  /** The slot starting at minute `t`: its rendering, available unless something booked starts there. */
  function SlotAt(t: int, doctorId: string, date: Day, repo: seq<Appointment>): (slot: Slot)
    requires 0 <= t < MinutesPerDay
  {
    var time := Render(t);
    Slot(time, !BookedAt(repo, doctorId, date, time))
  }

  /** Tags each slot start with its rendering and its availability. */
  function MarkSlots(times: seq<int>, doctorId: string, date: Day, repo: seq<Appointment>): (slots: seq<Slot>)
    requires forall i :: 0 <= i < |times| ==> 0 <= times[i] < MinutesPerDay
  {
    if |times| == 0 then []
    else [SlotAt(times[0], doctorId, date, repo)] + MarkSlots(times[1..], doctorId, date, repo)
  }

  /** Each slot carries the rendering of its start and is available exactly
      when nothing booked starts at that string. */
  lemma {:induction false} MarkSlotsMeaning(times: seq<int>, doctorId: string, date: Day, repo: seq<Appointment>)
    requires forall i :: 0 <= i < |times| ==> 0 <= times[i] < MinutesPerDay
    ensures |MarkSlots(times, doctorId, date, repo)| == |times|
    ensures forall i :: 0 <= i < |times| ==>
              && MarkSlots(times, doctorId, date, repo)[i].time == Render(times[i])
              && (MarkSlots(times, doctorId, date, repo)[i].available <==>
                    !BookedAt(repo, doctorId, date, Render(times[i])))
  {
    if |times| > 0 {
      MarkSlotsMeaning(times[1..], doctorId, date, repo);
      var slots := MarkSlots(times, doctorId, date, repo);
      var rest := MarkSlots(times[1..], doctorId, date, repo);
      forall i | 0 <= i < |times|
        ensures slots[i].time == Render(times[i])
        ensures slots[i].available <==> !BookedAt(repo, doctorId, date, Render(times[i]))
      {
        if i > 0 {
          assert slots[i] == rest[i - 1] && times[i] == times[1..][i - 1];
        }
      }
    }
  }

  /** The time fields and slot length a doctor needs for the grid to be
      computed; with a length of zero or less the source loop never ends. */
  predicate GridReady(d: Doctor) {
    MatchesTimePattern(d.startTime) && MatchesTimePattern(d.endTime) && d.appointmentDuration > 0
  }

  /** The slot listing of doctor `d` for a day whose weekday is `weekday`. */
  function Slots(d: Doctor, date: Day, weekday: int, repo: seq<Appointment>): (slots: seq<Slot>)
    requires GridReady(d)
  {
    if Appointments.IsWeekend(weekday) then []
    else MarkSlots(Grid(ToMinutes(d.startTime), ToMinutes(d.endTime), d.appointmentDuration), d.id, date, repo)
  }

  /** A weekend has no slots. Otherwise slot i starts i slot lengths after the
      doctor's start time and before the end time, rendered zero-padded; there
      are ceil((end - start) / length) of them; and a slot is available
      exactly when no booked record of the doctor on that day starts at that
      string. */
  lemma SlotsMeaning(d: Doctor, date: Day, weekday: int, repo: seq<Appointment>)
    requires GridReady(d)
    ensures Appointments.IsWeekend(weekday) ==> Slots(d, date, weekday, repo) == []
    ensures !Appointments.IsWeekend(weekday) ==>
              var slots := Slots(d, date, weekday, repo);
              var start, end, step := ToMinutes(d.startTime), ToMinutes(d.endTime), d.appointmentDuration;
              && (start >= end ==> |slots| == 0)
              && (start < end ==> (|slots| - 1) * step < end - start <= |slots| * step)
              && forall i :: 0 <= i < |slots| ==>
                   && IsPadded(slots[i].time)
                   && ToMinutes(slots[i].time) == start + i * step < end
                   && (slots[i].available <==> !BookedAt(repo, d.id, date, slots[i].time))
  {
    var start, end, step := ToMinutes(d.startTime), ToMinutes(d.endTime), d.appointmentDuration;
    GridCount(start, end, step);
    GridElements(start, end, step);
    if !Appointments.IsWeekend(weekday) {
      var g := Grid(start, end, step);
      MarkSlotsMeaning(g, d.id, date, repo);
      var slots := MarkSlots(g, d.id, date, repo);
      assert slots == Slots(d, date, weekday, repo);
      forall i | 0 <= i < |slots|
        ensures IsPadded(slots[i].time) && ToMinutes(slots[i].time) == start + i * step < end
      {
        assert slots[i].time == Render(g[i]);
        assert g[i] == start + i * step;
      }
    }
  }

  /** The slots the loop has still to emit once its cursor stands at `cursor`. */
  function Remaining(cursor: int, end: int, step: int, doctorId: string, date: Day, repo: seq<Appointment>): (slots: seq<Slot>)
    requires 0 <= cursor && end <= MinutesPerDay && step > 0
  {
    MarkSlots(Grid(cursor, end, step), doctorId, date, repo)
  }

  /** One turn of the slot loop: from a cursor before the end, the remaining
      slots are the cursor's slot followed by those from the next cursor. */
  lemma RemainingStep(cursor: int, next: int, end: int, step: int, doctorId: string, date: Day, repo: seq<Appointment>)
    requires 0 <= cursor < end <= MinutesPerDay && step > 0 && next == cursor + step
    ensures Remaining(cursor, end, step, doctorId, date, repo)
            == [SlotAt(cursor, doctorId, date, repo)] + Remaining(next, end, step, doctorId, date, repo)
  {
    var rest := Grid(next, end, step);
    assert Grid(cursor, end, step) == [cursor] + rest;
    assert ([cursor] + rest)[1..] == rest;
  }

  /** The loop state after emitting `slots` with the cursor at `cursor`:
      what is left to emit completes the listing from `start`. */
  predicate WalkedTo(start: int, cursor: int, end: int, step: int, doctorId: string, date: Day,
                     repo: seq<Appointment>, slots: seq<Slot>)
    requires 0 <= start && 0 <= cursor && end <= MinutesPerDay && step > 0
  {
    Remaining(start, end, step, doctorId, date, repo) == slots + Remaining(cursor, end, step, doctorId, date, repo)
  }

  /** One turn of the loop keeps its state well formed. */
  lemma WalkStep(start: int, cursor: int, next: int, end: int, step: int, doctorId: string, date: Day,
                 repo: seq<Appointment>, slots: seq<Slot>, after: seq<Slot>)
    requires 0 <= start && 0 <= cursor < end <= MinutesPerDay && step > 0
    requires next == cursor + step && after == slots + [SlotAt(cursor, doctorId, date, repo)]
    requires WalkedTo(start, cursor, end, step, doctorId, date, repo, slots)
    ensures WalkedTo(start, next, end, step, doctorId, date, repo, after)
  {
    var slot := SlotAt(cursor, doctorId, date, repo);
    var rest := Remaining(next, end, step, doctorId, date, repo);
    calc {
      Remaining(start, end, step, doctorId, date, repo);
      slots + Remaining(cursor, end, step, doctorId, date, repo);
      { RemainingStep(cursor, next, end, step, doctorId, date, repo); }
      slots + ([slot] + rest);
      { ConcatAssociates(slots, [slot], rest); }
      after + rest;
    }
  }

  lemma ConcatAssociates<T>(a: seq<T>, b: seq<T>, c: seq<T>)
    ensures a + (b + c) == (a + b) + c
  {
  }

  /** The slot loop: emit a slot at the cursor and advance it by `step`
      while it is before `end`. */
  method WalkGrid(start: int, end: int, step: int, doctorId: string, date: Day, repo: seq<Appointment>)
    returns (slots: seq<Slot>)
    requires 0 <= start && end <= MinutesPerDay && step > 0
    ensures slots == Remaining(start, end, step, doctorId, date, repo)
  {
    slots := [];
    var cursor := start;
    assert [] + Remaining(start, end, step, doctorId, date, repo) == Remaining(start, end, step, doctorId, date, repo);
    while cursor < end
      invariant 0 <= cursor
      invariant WalkedTo(start, cursor, end, step, doctorId, date, repo, slots)
      decreases end - cursor
    {
      var emitted, at := slots, cursor;
      slots := slots + [SlotAt(cursor, doctorId, date, repo)];
      cursor := cursor + step;
      WalkStep(start, at, cursor, end, step, doctorId, date, repo, emitted, slots);
    }
    assert Remaining(cursor, end, step, doctorId, date, repo) == [] by {
      assert Grid(cursor, end, step) == [];
    }
    assert slots + [] == slots;
  }

  /** The slot listing endpoint: look the doctor up, refuse weekends, then
      walk the grid of the doctor's working hours. */
  method GetAvailableTimeSlots(doctors: seq<Doctor>, repo: seq<Appointment>, doctorId: string, date: Day, weekday: int)
    returns (r: Result<seq<Slot>, DoctorError>)
    requires FindDoctor(doctors, doctorId).Some? ==> GridReady(FindDoctor(doctors, doctorId).value)
    ensures FindDoctor(doctors, doctorId).None? <==> r == Err(DoctorNotFound)
    ensures FindDoctor(doctors, doctorId).Some? ==>
              r == Ok(Slots(FindDoctor(doctors, doctorId).value, date, weekday, repo))
  {
    var found := FindDoctor(doctors, doctorId);
    if found.None? {
      return Err(DoctorNotFound);
    }
    var d := found.value;
    if weekday == 0 || weekday == 6 {
      return Ok([]);
    }
    var slots := WalkGrid(ToMinutes(d.startTime), ToMinutes(d.endTime), d.appointmentDuration, d.id, date, repo);
    return Ok(slots);
  }

  lemma StandardDayGridMinutes()
    ensures var g := Grid(540, 1020, 30);
            |g| == 16 && g[0] == 540 && g[15] == 990
  {
    GridCount(540, 1020, 30);
    GridElements(540, 1020, 30);
    var g := Grid(540, 1020, 30);
    assert (|g| - 1) * 30 < 480 <= |g| * 30;
  }

  /** The grid for 09:00-17:00 at 30 minutes: 16 slots from 09:00 to 16:30,
      and 17:00 is never a slot. */
  lemma StandardDayGrid()
    ensures var g := Grid(ToMinutes("09:00"), ToMinutes("17:00"), 30);
            && |g| == 16
            && Render(g[0]) == "09:00" && Render(g[15]) == "16:30"
            && forall i :: 0 <= i < |g| ==> Render(g[i]) != "17:00"
  {
    StandardDayGridMinutes();
    assert ToMinutes("09:00") == 540 && ToMinutes("17:00") == 1020 && ToMinutes("16:30") == 990;
    var g := Grid(540, 1020, 30);
    RenderOfPadded("09:00");
    RenderOfPadded("16:30");
    forall i | 0 <= i < |g|
      ensures Render(g[i]) != "17:00"
    {
      assert ToMinutes(Render(g[i])) == g[i] < 1020;
    }
  }

  /** The count rounds up: a 60-minute day of 45-minute slots has two, and the
      second runs past the doctor's end time. */
  lemma GridRoundsUp()
    ensures var g := Grid(ToMinutes("09:00"), ToMinutes("10:00"), 45);
            |g| == 2 && Render(g[1]) == "09:45" && g[1] + 45 > ToMinutes("10:00")
  {
    assert ToMinutes("09:00") == 540 && ToMinutes("10:00") == 600 && ToMinutes("09:45") == 585;
    GridCount(540, 600, 45);
    GridElements(540, 600, 45);
    var g := Grid(540, 600, 45);
    assert (|g| - 1) * 45 < 60 <= |g| * 45;
    assert |g| == 2;
    assert g[1] == 585;
    RenderOfPadded("09:45");
  }

  /** Availability is exact string matching: records whose start is not the
      zero-padded rendering of a grid point (an off-grid time, or an unpadded
      hour) leave every slot available, even a slot their interval covers. */
  lemma UnalignedBookingsBlockNothing(d: Doctor, date: Day, weekday: int, repo: seq<Appointment>)
    requires GridReady(d)
    requires forall j :: 0 <= j < |repo| ==>
               !IsPadded(repo[j].startTime)
               || ToMinutes(repo[j].startTime) !in Grid(ToMinutes(d.startTime), ToMinutes(d.endTime), d.appointmentDuration)
    ensures forall i :: 0 <= i < |Slots(d, date, weekday, repo)| ==> Slots(d, date, weekday, repo)[i].available
  {
    var g := Grid(ToMinutes(d.startTime), ToMinutes(d.endTime), d.appointmentDuration);
    var slots := Slots(d, date, weekday, repo);
    if !Appointments.IsWeekend(weekday) {
      MarkSlotsMeaning(g, d.id, date, repo);
      forall i | 0 <= i < |slots|
        ensures slots[i].available
      {
        forall j | 0 <= j < |repo|
          ensures repo[j].startTime != Render(g[i])
        {
          assert g[i] in g;
          assert ToMinutes(Render(g[i])) == g[i];
        }
      }
    }
  }

  /** A validated creation request yields a doctor the listing can serve:
      both times are in the pattern and the slot length bounds give the slot
      loop a positive step. With zero-padded times a weekday listing is
      non-empty and opens with the doctor's start time. */
  lemma ValidatedDoctorOffersSlots(doctors: seq<Doctor>, req: CreateDoctorRequest, id: string,
                                   date: Day, weekday: int, repo: seq<Appointment>)
    requires ValidCreateDoctor(req)
    requires CreateDoctor(doctors, req, id).Ok?
    ensures GridReady(CreateDoctor(doctors, req, id).value)
    ensures IsPadded(req.startTime) && IsPadded(req.endTime) && !Appointments.IsWeekend(weekday) ==>
              var slots := Slots(CreateDoctor(doctors, req, id).value, date, weekday, repo);
              |slots| > 0 && slots[0].time == req.startTime
  {
    var d := CreateDoctor(doctors, req, id).value;
    if IsPadded(req.startTime) && IsPadded(req.endTime) && !Appointments.IsWeekend(weekday) {
      CreatedDoctorHasWindow(doctors, req, id);
      SlotsMeaning(d, date, weekday, repo);
      var slots := Slots(d, date, weekday, repo);
      assert |slots| > 0;
      RenderOfPadded(slots[0].time);
      RenderOfPadded(req.startTime);
    }
  }

  /** The creation range check compares strings and the pattern admits an
      unpadded hour: "10:00" sorts before "9:00", so a validated request for
      10:00-9:00 creates a doctor whose window is inverted in minutes and
      whose listing is empty on every day. */
  lemma ValidatedUnpaddedEndInvertsWindow(doctors: seq<Doctor>, req: CreateDoctorRequest, id: string,
                                          date: Day, weekday: int, repo: seq<Appointment>)
    requires ValidCreateDoctor(req) && !EmailTaken(doctors, req.email)
    requires req.startTime == "10:00" && req.endTime == "9:00"
    ensures CreateDoctor(doctors, req, id).Ok?
    ensures var d := CreateDoctor(doctors, req, id).value;
            ToMinutes(d.endTime) < ToMinutes(d.startTime) && Slots(d, date, weekday, repo) == []
  {
    assert Less("10:00", "9:00");
    var d := CreateDoctor(doctors, req, id).value;
    assert ToMinutes("10:00") == 600 && ToMinutes("9:00") == 540;
    SlotsMeaning(d, date, weekday, repo);
  }

  /** A successful booking takes the slot string it starts at, whatever status
      filter the overlap query used: the new record is Scheduled, which the
      slot query counts as booked. */
  lemma BookingTakesItsSlot(f: StatusFilter, doctors: seq<Doctor>, repo: seq<Appointment>,
                            req: CreateAppointmentRequest, clock: Appointments.Clock, id: string)
    requires MatchesTimePattern(req.startTime)
    requires Appointments.Create(f, doctors, repo, req, clock, id).Ok?
    ensures BookedAt(repo + [Appointments.Create(f, doctors, repo, req, clock, id).value],
                     req.doctorId, req.appointmentDate, req.startTime)
  {
    var a := Appointments.Create(f, doctors, repo, req, clock, id).value;
    assert (repo + [a])[|repo|] == a;
  }
}

=== FILE: entities.dfy ===
/** The two record kinds the services read and write, and the status values
    an appointment moves through. */
module Entities {
  import opened Outcomes
  import opened ClockTime

  /** Appointment lifecycle states. */
  datatype Status = Scheduled | Confirmed | Cancelled | Completed | NoShow

  /** The text each status is stored as in the `status` column. */
  function StatusText(s: Status): (text: string) {
    match s
    case Scheduled => "scheduled"
    case Confirmed => "confirmed"
    case Cancelled => "cancelled"
    case Completed => "completed"
    case NoShow => "no_show"
  }

  datatype Specialization =
    | Cardiology | Dermatology | Neurology | Orthopedics
    | Pediatrics | Psychiatry | Surgery | InternalMedicine

  /** Slot length given to a doctor whose request leaves the duration out. */
  const DefaultAppointmentDuration: int := 30

  datatype Doctor = Doctor(
    id: string,
    firstName: string,
    lastName: string,
    email: string,
    phone: string,
    specialization: Specialization,
    bio: Option<string>,
    imageUrl: Option<string>,
    isActive: bool,
    startTime: string,
    endTime: string,
    appointmentDuration: int)

  /** Position of the first record whose id, as `idOf` reads it, is `id`,
      or -1 when there is none: the lookup by primary key of both services. */
  function FirstWithId<T>(xs: seq<T>, idOf: T -> string, id: string): (k: int)
    ensures -1 <= k < |xs|
    ensures k == -1 <==> forall i :: 0 <= i < |xs| ==> idOf(xs[i]) != id
    ensures k >= 0 ==> idOf(xs[k]) == id && forall i :: 0 <= i < k ==> idOf(xs[i]) != id
  {
    if |xs| == 0 then -1
    else if idOf(xs[0]) == id then 0
    else
      var k := FirstWithId(xs[1..], idOf, id);
      if k == -1 then -1 else k + 1
  }

  /** Position of the first doctor with the given id, or -1 when there is none. */
  function DoctorIndex(doctors: seq<Doctor>, id: string): (k: int)
    ensures -1 <= k < |doctors|
    ensures k == -1 <==> forall i :: 0 <= i < |doctors| ==> doctors[i].id != id
    ensures k >= 0 ==> doctors[k].id == id && forall i :: 0 <= i < k ==> doctors[i].id != id
  {
    FirstWithId(doctors, (d: Doctor) => d.id, id)
  }

  /** The doctor the lookup by primary key finds, if any. */
  function FindDoctor(doctors: seq<Doctor>, id: string): (r: Option<Doctor>)
    ensures r.Some? ==> r.value in doctors && r.value.id == id
    ensures r.None? <==> forall i :: 0 <= i < |doctors| ==> doctors[i].id != id
  {
    var k := DoctorIndex(doctors, id);
    if k == -1 then None else Some(doctors[k])
  }

  /** A calendar day, counted in days in the server's local calendar. */
  type Day = int

  datatype Appointment = Appointment(
    id: string,
    doctorId: string,
    patientFirstName: string,
    patientLastName: string,
    patientEmail: string,
    patientPhone: string,
    appointmentDate: Day,
    startTime: string,
    endTime: string,
    status: Status,
    notes: Option<string>,
    cancellationReason: Option<string>)

  /** A `WHERE status ...` condition of a repository query: the SQL range
      `BETWEEN low AND high` on the stored text, `IN (...)`, or `NOT IN (...)`. */
  datatype StatusFilter =
    | Between(low: Status, high: Status)
    | AnyOf(allowed: set<Status>)
    | NoneOf(excluded: set<Status>)

  predicate Admits(f: StatusFilter, s: Status) {
    match f
    case Between(low, high) =>
      !Less(StatusText(s), StatusText(low)) && !Less(StatusText(high), StatusText(s))
    case AnyOf(allowed) => s in allowed
    case NoneOf(excluded) => s !in excluded
  }

  /** The statuses that hold a booking for double-booking purposes. */
  predicate IsActive(s: Status) {
    s == Scheduled || s == Confirmed
  }

  /** The filter the overlap query is written with. */
  const WrittenOverlapFilter: StatusFilter := Between(Scheduled, Confirmed)

  /** The filter the overlap query evidently means. */
  const ActiveFilter: StatusFilter := AnyOf({Scheduled, Confirmed})

  /** The filter the slot query uses: everything except cancelled and no-show. */
  const BookedFilter: StatusFilter := NoneOf({Cancelled, NoShow})

  /** Read as an SQL range on the stored text, the written overlap filter
      admits no status at all, because "confirmed" sorts before "scheduled". */
  lemma WrittenOverlapFilterIsEmpty(s: Status)
    ensures !Admits(WrittenOverlapFilter, s)
  {
    assert Less("confirmed", "scheduled");
    match s
    case Scheduled =>
    case Confirmed => assert Less("confirmed", "scheduled");
    case Cancelled => assert Less("cancelled", "scheduled");
    case Completed => assert Less("completed", "scheduled");
    case NoShow => assert Less("no_show", "scheduled");
  }

  /** The intended overlap filter admits exactly the active statuses. */
  lemma ActiveFilterIsActive(s: Status)
    ensures Admits(ActiveFilter, s) <==> IsActive(s)
  {
  }

  /** The slot query counts completed appointments as taking their slot, so
      "booked" and "active" are different sets: they differ exactly on Completed. */
  lemma BookedDiffersFromActive(s: Status)
    ensures Admits(BookedFilter, s) <==> IsActive(s) || s == Completed
  {
  }
}

=== FILE: outcomes.dfy ===
/** Failure-carrying values used by the services: an optional field, and the
    outcome of an operation that either yields a value or rejects the request. */
module Outcomes {

  /** An optional value; `None` is an absent (undefined) request field. */
  datatype Option<+T> = None | Some(value: T)

  /** The outcome of a service call: a value, or the reason it was rejected. */
  datatype Result<+T, +E> = Ok(value: T) | Err(error: E)

  /** JavaScript truthiness of an optional string field: present and
      non-empty. Both services test request fields this way. */
  predicate Supplied(o: Option<string>) {
    o.Some? && o.value != ""
  }
}

=== FILE: requests.dfy ===
/** Request bodies accepted by the two creation endpoints, and the field
    constraints their validation decorators impose before a service runs. */
module Requests {
  import opened Outcomes
  import opened ClockTime
  import opened Entities

  datatype CreateDoctorRequest = CreateDoctorRequest(
    firstName: string,
    lastName: string,
    email: string,
    phone: string,
    specialization: Specialization,
    bio: Option<string>,
    imageUrl: Option<string>,
    isActive: Option<bool>,
    startTime: string,
    endTime: string,
    appointmentDuration: Option<int>)

  /** The body of a doctor update: any subset of the creation fields. It is
      typed as a partial of the creation body and so reaches the service
      without field validation. */
  datatype DoctorUpdate = DoctorUpdate(
    firstName: Option<string>,
    lastName: Option<string>,
    email: Option<string>,
    phone: Option<string>,
    specialization: Option<Specialization>,
    bio: Option<string>,
    imageUrl: Option<string>,
    isActive: Option<bool>,
    startTime: Option<string>,
    endTime: Option<string>,
    appointmentDuration: Option<int>)

  datatype CreateAppointmentRequest = CreateAppointmentRequest(
    doctorId: string,
    patientFirstName: string,
    patientLastName: string,
    patientEmail: string,
    patientPhone: string,
    appointmentDate: Day,
    startTime: string,
    notes: Option<string>)

  predicate LengthWithin(s: string, lo: int, hi: int) {
    lo <= |s| <= hi
  }

  /** Bounds on the optional slot length of a doctor. */
  const MinAppointmentDuration: int := 15
  const MaxAppointmentDuration: int := 120

  /** The decorators of the doctor creation body (e-mail syntax aside). */
  predicate ValidCreateDoctor(r: CreateDoctorRequest) {
    && LengthWithin(r.firstName, 2, 100)
    && LengthWithin(r.lastName, 2, 100)
    && LengthWithin(r.phone, 10, 20)
    && MatchesTimePattern(r.startTime)
    && MatchesTimePattern(r.endTime)
    && (r.appointmentDuration.Some? ==>
          MinAppointmentDuration <= r.appointmentDuration.value <= MaxAppointmentDuration)
  }

  /** The decorators of the appointment creation body (e-mail, UUID and date syntax aside). */
  predicate ValidCreateAppointment(r: CreateAppointmentRequest) {
    && LengthWithin(r.patientFirstName, 2, 100)
    && LengthWithin(r.patientLastName, 2, 100)
    && LengthWithin(r.patientPhone, 10, 20)
    && MatchesTimePattern(r.startTime)
  }

  /** The creation decorators applied to each field an update body carries:
      what validating the body as a partial of the creation body demands. */
  predicate ValidDoctorUpdate(u: DoctorUpdate) {
    && (u.firstName.Some? ==> LengthWithin(u.firstName.value, 2, 100))
    && (u.lastName.Some? ==> LengthWithin(u.lastName.value, 2, 100))
    && (u.phone.Some? ==> LengthWithin(u.phone.value, 10, 20))
    && (u.startTime.Some? ==> MatchesTimePattern(u.startTime.value))
    && (u.endTime.Some? ==> MatchesTimePattern(u.endTime.value))
    && (u.appointmentDuration.Some? ==>
          MinAppointmentDuration <= u.appointmentDuration.value <= MaxAppointmentDuration)
  }

  /** The slot length a created doctor ends up with: the requested one, or the column default. */
  function EffectiveDuration(r: CreateDoctorRequest): (d: int)
    ensures r.appointmentDuration.Some? ==> d == r.appointmentDuration.value
    ensures r.appointmentDuration.None? ==> d == DefaultAppointmentDuration
    ensures ValidCreateDoctor(r) ==> MinAppointmentDuration <= d <= MaxAppointmentDuration
  {
    if r.appointmentDuration.Some? then r.appointmentDuration.value else DefaultAppointmentDuration
  }

  /** Boundary values of the time pattern used for `startTime` and `endTime`. */
  lemma TimePatternExamples()
    ensures MatchesTimePattern("00:00") && MatchesTimePattern("23:59")
    ensures MatchesTimePattern("9:00") && MatchesTimePattern("7:30")
    ensures !MatchesTimePattern("24:00") && !MatchesTimePattern("12:60")
    ensures !MatchesTimePattern("12:5") && !MatchesTimePattern("123:00")
  {
  }
}

=== FILE: scenarios.dfy ===
/** Booking scenarios over the whole model: the double booking the status
    filter as written lets through, the same request under the intended
    filter, reactivation of a cancelled booking, and how completed bookings
    are treated by the overlap check and by the slot listing. */
module Scenarios {
  import opened Outcomes
  import opened ClockTime
  import opened Entities
  import opened Requests
  import opened Appointments
  import Doctors

  /** The booked doctor of a request the booking service accepted. */
  function BookedDoctor(doctors: seq<Doctor>, req: CreateAppointmentRequest): (d: Doctor)
    requires FindDoctor(doctors, req.doctorId).Some?
  {
    FindDoctor(doctors, req.doctorId).value
  }

  /** A zero-padded booking of positive length that stays within the day. */
  predicate Ordinary(doctors: seq<Doctor>, req: CreateAppointmentRequest) {
    && IsPadded(req.startTime)
    && FindDoctor(doctors, req.doctorId).Some?
    && 0 < BookedDoctor(doctors, req).appointmentDuration
    && ToMinutes(req.startTime) + BookedDoctor(doctors, req).appointmentDuration < MinutesPerDay
  }

  /** The saved record of an accepted booking spans a non-empty interval and
      conflicts, by the three-way test, with a booking of the same times. */
  lemma SavedBookingConflictsWithItsTwin(doctors: seq<Doctor>, repo: seq<Appointment>,
                                         req: CreateAppointmentRequest, clock: Clock, id: string, f: StatusFilter)
    requires Ordinary(doctors, req)
    requires Create(f, doctors, repo, req, clock, id).Ok?
    ensures var a := Create(f, doctors, repo, req, clock, id).value;
            && WellFormed(a)
            && a.endTime == EndTime(req.startTime, BookedDoctor(doctors, req).appointmentDuration)
            && ConflictsAsWritten(req.startTime, a.endTime, a.startTime, a.endTime)
  {
    var a := Create(f, doctors, repo, req, clock, id).value;
    PaddedOrderIsMinuteOrder(a.startTime, a.endTime);
    LessIrreflexive(a.startTime);
  }

  /** Two identical requests, as in the repository's end-to-end script: with
      the status filter as written the second is accepted too, and the two
      saved records are a double booking. */
  lemma WrittenFilterAdmitsDoubleBooking(doctors: seq<Doctor>, req: CreateAppointmentRequest,
                                         clock: Clock, first: string, second: string)
    requires Ordinary(doctors, req)
    requires Create(WrittenOverlapFilter, doctors, [], req, clock, first).Ok?
    ensures var a := Create(WrittenOverlapFilter, doctors, [], req, clock, first).value;
            var r := Create(WrittenOverlapFilter, doctors, [a], req, clock, second);
            r.Ok? && !NoDoubleBooking([a, r.value])
  {
    var a := Create(WrittenOverlapFilter, doctors, [], req, clock, first).value;
    WrittenFilterNeverConflicts([a], req.doctorId, req.appointmentDate, req.startTime,
                                EndTime(req.startTime, BookedDoctor(doctors, req).appointmentDuration));
    var b := Create(WrittenOverlapFilter, doctors, [a], req, clock, second).value;
    SavedBookingConflictsWithItsTwin(doctors, [], req, clock, first, WrittenOverlapFilter);
    SavedBookingConflictsWithItsTwin(doctors, [a], req, clock, second, WrittenOverlapFilter);
    assert Clash([a, b][0], [a, b][1]);
  }

  /** With the intended filter the second identical request is refused as a
      slot conflict. */
  lemma ActiveFilterRefusesDoubleBooking(doctors: seq<Doctor>, req: CreateAppointmentRequest,
                                         clock: Clock, first: string, second: string)
    requires Ordinary(doctors, req)
    requires Create(ActiveFilter, doctors, [], req, clock, first).Ok?
    ensures var a := Create(ActiveFilter, doctors, [], req, clock, first).value;
            Create(ActiveFilter, doctors, [a], req, clock, second) == Err(SlotConflict)
  {
    var a := Create(ActiveFilter, doctors, [], req, clock, first).value;
    SavedBookingConflictsWithItsTwin(doctors, [], req, clock, first, ActiveFilter);
    var end := EndTime(req.startTime, BookedDoctor(doctors, req).appointmentDuration);
    assert Blocks(ActiveFilter, [a][0], req.doctorId, req.appointmentDate, req.startTime, end);
  }

  /** The status rule lets a cancelled booking return to Scheduled without
      any overlap check, so a repository free of double bookings can gain
      one: cancel a booking, rebook its slot, then reactivate the first. */
  lemma ReactivationReopensDoubleBooking(a: Appointment, b: Appointment)
    requires WellFormed(a) && WellFormed(b)
    requires a.id != b.id
    requires a.doctorId == b.doctorId && a.appointmentDate == b.appointmentDate
    requires a.startTime == b.startTime && a.endTime == b.endTime
    requires a.status == Cancelled && b.status == Scheduled
    ensures NoDoubleBooking([a, b])
    ensures var r := UpdateStatus([a, b], a.id, Scheduled, None);
            r.Ok? && !NoDoubleBooking(r.value)
  {
    assert IndexOf([a, b], a.id) == 0;
    var r := UpdateStatus([a, b], a.id, Scheduled, None);
    assert r.value[0].status == Scheduled && r.value[1] == b;
    assert Clash(r.value[0], r.value[1]);
  }

  /** A completed booking no longer blocks a new booking of its interval,
      yet the slot listing still reports its slot as taken. */
  lemma CompletedFreesBookingButNotSlot(d: Doctor, date: Day, weekday: int, repo: seq<Appointment>,
                                        i: int, j: int, start: string, end: string)
    requires Doctors.GridReady(d) && !IsWeekend(weekday)
    requires 0 <= i < |Doctors.Slots(d, date, weekday, repo)|
    requires 0 <= j < |repo|
    requires repo[j].doctorId == d.id && repo[j].appointmentDate == date
    requires repo[j].status == Completed
    requires repo[j].startTime == Doctors.Slots(d, date, weekday, repo)[i].time
    ensures !Blocks(ActiveFilter, repo[j], d.id, date, start, end)
    ensures !Doctors.Slots(d, date, weekday, repo)[i].available
  {
    ActiveFilterIsActive(Completed);
    BookedDiffersFromActive(Completed);
    Doctors.SlotsMeaning(d, date, weekday, repo);
  }

  /** The doctor of the end-to-end script: 09:00-17:00 in 30-minute slots. */
  function ScriptDoctor(id: string): (d: Doctor) {
    Doctor(id, "Dr. John", "Doe", "john.doe2@hospital.com", "+1-555-0100", Cardiology,
           None, None, true, "09:00", "17:00", 30)
  }

  /** The script's booking request: 10:00 on 2025-12-15, day 20437 counted
      from 1970-01-01, a Monday. */
  function ScriptRequest(doctorId: string): (req: CreateAppointmentRequest) {
    CreateAppointmentRequest(doctorId, "Jane", "Smith", "jane.smith@email.com", "+1-555-0200",
                             20437, "10:00", None)
  }

  /** The script expects the repeated request to be refused. With the filter
      as written both are accepted; with the intended filter the second is a
      slot conflict. */
  lemma ScriptDoubleBooking(now: int)
    requires now < 20437 * MinutesPerDay
    ensures var doctors, req, clock := [ScriptDoctor("d")], ScriptRequest("d"), Clock(now, 1);
            && Create(WrittenOverlapFilter, doctors, [], req, clock, "a1").Ok?
            && var a := Create(WrittenOverlapFilter, doctors, [], req, clock, "a1").value;
               && a.endTime == "10:30"
               && Create(WrittenOverlapFilter, doctors, [a], req, clock, "a2").Ok?
               && !NoDoubleBooking([a, Create(WrittenOverlapFilter, doctors, [a], req, clock, "a2").value])
               && Create(ActiveFilter, doctors, [a], req, clock, "a2") == Err(SlotConflict)
  {
    var doctors, req, clock := [ScriptDoctor("d")], ScriptRequest("d"), Clock(now, 1);
    assert FindDoctor(doctors, "d") == Some(ScriptDoctor("d"));
    assert ToMinutes("10:00") == 600 && ToMinutes("10:30") == 630;
    EndTimeOfMinutes("10:00", 30, "10:30", 600, 630);
    assert InWorkingHours(ScriptDoctor("d"), "10:00") by {
      assert Less("09:00", "10:00") && Less("10:00", "17:00");
      LessAsymmetric("09:00", "10:00");
    }
    WrittenFilterNeverConflicts([], "d", 20437, "10:00", "10:30");
    assert !HasConflict(ActiveFilter, [], "d", 20437, "10:00", "10:30");
    var a := Create(WrittenOverlapFilter, doctors, [], req, clock, "a1").value;
    assert Create(ActiveFilter, doctors, [], req, clock, "a1").value == a;
    WrittenFilterAdmitsDoubleBooking(doctors, req, clock, "a1", "a2");
    ActiveFilterRefusesDoubleBooking(doctors, req, clock, "a1", "a2");
  }

  /** Only the start is held against the working hours: a request at 16:59
      is accepted and its booking ends at 17:29, after the doctor's day. */
  lemma LateStartRunsPastClosing(now: int)
    requires now < 20437 * MinutesPerDay
    ensures var req := ScriptRequest("d").(startTime := "16:59");
            var r := Create(ActiveFilter, [ScriptDoctor("d")], [], req, Clock(now, 1), "a1");
            r.Ok? && r.value.endTime == "17:29" && Less(ScriptDoctor("d").endTime, r.value.endTime)
  {
    var req := ScriptRequest("d").(startTime := "16:59");
    assert FindDoctor([ScriptDoctor("d")], "d") == Some(ScriptDoctor("d"));
    assert ToMinutes("16:59") == 1019 && ToMinutes("17:29") == 1049;
    EndTimeOfMinutes("16:59", 30, "17:29", 1019, 1049);
    assert InWorkingHours(ScriptDoctor("d"), "16:59") by {
      assert Less("09:00", "16:59") && Less("16:59", "17:00");
      LessAsymmetric("09:00", "16:59");
    }
    assert !HasConflict(ActiveFilter, [], "d", 20437, "16:59", "17:29");
    assert Less("17:00", "17:29");
  }
}
